=== FILE: README.md ===
# FixImages, modelled in Dafny

FixImages repairs a Word document whose pictures point at image relationships
that no longer exist. It reads three things:

- the main document part;
- the relationship table `word/_rels/document.xml.rels`;
- the media folder.

It then sorts media files and embedded relationship ids into found and not
found. A picture still waiting for repair carries a blip whose `r:embed` is a
fixed placeholder id (`rId7` in the source). For every such picture, a
replacement image from a staging folder is installed:

1. the image is copied into the media folder under the next free
   `image<N>.jpeg` name;
2. a relationship is appended under the next free `rId<N>` id;
3. the first waiting blip is relabelled with that id;
4. when all pictures that carry the file's name are done, the staging file
   moves to a "done" folder.

The model works on values, not on XML:

- The document is a sequence of `GraphicElement`s. Each is one `a:graphic`
  with its optional `pic:cNvPr` and optional `a:blip`.
- The relationship table is a sequence of `Relationship(id, target)`.
- The three folders are sets of file names in a `Package`.
- The id cursors are the source's `RIdWalker` and `ImageFileWalker`, as
  immutable datatypes.
- The placeholder id is a parameter.

Modules:

- `Identifiers`: parsing and formatting of `rId<N>` and `image<N>.<ext>`, and
  the maximum scans.
- `Allocation`: the walkers, the ids they issue, and a cursor that skips the
  placeholder.
- `RelationshipIndex`: the id-to-target map, with NULL targets excluded.
- `Classification`: the found / not found / missing sorting.
- `ReferenceGraph` and `BlipQuery`: the graphic records, and the count and
  rewrite of waiting blips.
- `Repair`: one repair iteration, the per-file loop and the driver over the
  staging folder.
- `Namespaces`: the prefix/URI table of the XPath context.

## Model

| member | source | states |
|---|---|---|
| Identifiers.FormatNat | src/main/java/ninckblokje/document/FixImages.java:487-490 | `%d` writes a non-empty run of decimal digits for every non-negative number. |
| Identifiers.FormatNatRoundTrip | src/main/java/ninckblokje/document/FixImages.java:487-490 | Reading back the decimal text that `%d` writes for a number yields that number. |
| Identifiers.LeadingDigitsStopAtNonDigit | src/main/java/ninckblokje/document/FixImages.java:372-379 | The greedy `\d+` run of a string that is digits followed by a non-digit is exactly those digits. |
| Identifiers.ParseRIdValue | src/main/java/ninckblokje/document/FixImages.java:381-388 | A string that does not match `^(rId)(\d+)$` is rejected with a parse error that carries the string. |
| Identifiers.ParseRIdValueMatches | src/main/java/ninckblokje/document/FixImages.java:381-388 | A text parses exactly when it is `rId`, a non-empty run of digits, and then nothing or one final line terminator, `\r\n` counting as one; the value is the number the digits denote. |
| Identifiers.ParseRIdValueOf | src/main/java/ninckblokje/document/FixImages.java:381-388 | `rId`, any non-empty run of digits and an allowed tail parse to the value of those digits. |
| Identifiers.RIdExample | src/main/java/ninckblokje/document/FixImages.java:381-388 | `rId12` parses to 12. |
| Identifiers.FormatRIdShape | src/main/java/ninckblokje/document/FixImages.java:487-490 | `new RId(n)` writes `rId` followed by a non-empty run of digits. |
| Identifiers.RIdRoundTrip | src/main/java/ninckblokje/document/FixImages.java:482-490 | An id built from a number parses back to that same number. |
| Identifiers.FormatRIdInjective | src/main/java/ninckblokje/document/FixImages.java:487-490 | Distinct numbers give distinct `rId` strings. |
| Identifiers.ParseRId | src/main/java/ninckblokje/document/FixImages.java:482-485 | An id is accepted exactly when its value parses; the original text is kept and paired with the parsed value. |
| Identifiers.ParseImageFilename | src/main/java/ninckblokje/document/FixImages.java:372-379 | A name the pattern rejects yields a parse error that carries the name. |
| Identifiers.ParseImageFilenameMatches | src/main/java/ninckblokje/document/FixImages.java:372-379 | A name parses exactly when it starts with `image`, a non-empty run of digits and a dot; anything may follow the dot, and the value is the number the digits denote. |
| Identifiers.ParseImageFilenameOf | src/main/java/ninckblokje/document/FixImages.java:372-379 | `image`, any non-empty run of digits, a dot and any tail parse to the value of those digits. |
| Identifiers.ImageFilenameExample | src/main/java/ninckblokje/document/FixImages.java:372-379 | `image3.png` parses to 3. |
| Identifiers.ImageFilenameNearMisses | src/main/java/ninckblokje/document/FixImages.java:372-379 | `image5x` (no dot after the digits) and `image.png` (no digits) are rejected. |
| Identifiers.FormatImageFileShape | src/main/java/ninckblokje/document/FixImages.java:432-435 | `new ImageFile(n)` writes `image`, a non-empty run of digits and `.jpeg`. |
| Identifiers.ImageFileRoundTrip | src/main/java/ninckblokje/document/FixImages.java:372-379 | A generated `image<N>.jpeg` name parses back to N. |
| Identifiers.FormatImageFileInjective | src/main/java/ninckblokje/document/FixImages.java:427-435 | Distinct numbers give distinct generated media names. |
| Identifiers.ParseImageFile | src/main/java/ninckblokje/document/FixImages.java:427-435 | A media name is accepted exactly when its number parses; the name is kept and paired with the parsed number. |
| Identifiers.GetMaxRId | src/main/java/ninckblokje/document/FixImages.java:192-210 | The scan fails exactly when some id does not parse. It yields nothing exactly when the table is empty. Otherwise it yields the first id whose value is largest, and every id's value is at most that. |
| Identifiers.GetMaxImageFile | src/main/java/ninckblokje/document/FixImages.java:171-190 | The scan fails exactly when some media name does not parse. It yields nothing exactly for an empty folder. Otherwise it yields the first largest name, and every name's number is at most that. |
| Allocation.NextRId | src/main/java/ninckblokje/document/FixImages.java:509-511 | The walker issues the id one above its current one, in canonical form, and moves its cursor onto it. |
| Allocation.NextImageFile | src/main/java/ninckblokje/document/FixImages.java:454-456 | The walker issues the media name one above its current one, in canonical form, and moves onto it. |
| Allocation.IssueRIds | src/main/java/ninckblokje/document/FixImages.java:526-529 | k steps of the id walker issue exactly the ids seed+1 … seed+k, and the cursor ends at seed+k. |
| Allocation.IssueImageFiles | src/main/java/ninckblokje/document/FixImages.java:471-474 | k steps of the image walker issue exactly the names seed+1 … seed+k, and the cursor ends at seed+k. |
| Allocation.IssuedRIdsIncreaseAndDiffer | src/main/java/ninckblokje/document/FixImages.java:526-529 | The ids one walker issues strictly increase and are pairwise different strings. |
| Allocation.IssuedImageFilesIncreaseAndDiffer | src/main/java/ninckblokje/document/FixImages.java:471-474 | The media names one walker issues strictly increase and are pairwise different. |
| Allocation.IssuedImageFileIsFresh | src/main/java/ninckblokje/document/FixImages.java:171-190 | A name above the folder's largest number is not in the folder. |
| Allocation.IssuedRIdIsFresh | src/main/java/ninckblokje/document/FixImages.java:192-210 | An id above the table's largest id is not in the table. |
| Allocation.NextRIdAvoiding | src/main/java/ninckblokje/document/FixImages.java:509-511 | The corrected cursor never issues the placeholder. It advances by one, or by two when one step would land on the placeholder. |
| Allocation.AvoidingRunFresh | src/main/java/ninckblokje/document/FixImages.java:526-529 | A run of the corrected cursor issues numbers above the seed that strictly increase and never format to the placeholder. After k steps the cursor is at least seed+k. |
| Allocation.PlaceholderNumberOf | src/main/java/ninckblokje/document/FixImages.java:509-511 | The cursor would issue the placeholder at a number exactly when the placeholder is the canonical text of that number. |
| Allocation.AvoidingRunSplit | src/main/java/ninckblokje/document/FixImages.java:109-117 | A run of a+b steps is a run of a steps followed by a run of b steps from where the first stopped, and it ends on the same id. So one cursor shared across candidates issues what a single run issues. |
| Allocation.AvoidingRunIsPlain | src/main/java/ninckblokje/document/FixImages.java:509-511 | When the placeholder is not the canonical text of a number above the seed, the corrected cursor issues exactly seed+1 … seed+k, as the source's walker does. |
| RelationshipIndex.ParseRelations | src/main/java/ninckblokje/document/FixImages.java:346-370 | Every key of the map is the id of some relationship in the table. |
| RelationshipIndex.ParseRelationsKeys | src/main/java/ninckblokje/document/FixImages.java:357-367 | An id is a key exactly when some relationship with that id has a target that is not `NULL` in any letter case. |
| RelationshipIndex.ParseRelationsLastWins | src/main/java/ninckblokje/document/FixImages.java:365 | A key maps to the target of its last non-NULL definition in table order. |
| RelationshipIndex.NullTargetsExcluded | src/main/java/ninckblokje/document/FixImages.java:362 | No target in the map is `NULL`, whatever its letter case. |
| RelationshipIndex.NullTargetIds | src/main/java/ninckblokje/document/FixImages.java:362-363 | The reported ids are exactly those of relationships with a NULL target. |
| Classification.FilterPartition | src/main/java/ninckblokje/document/FixImages.java:61-67 | Splitting a list by a test and by its negation loses and duplicates nothing. |
| Classification.FilterKeeps | src/main/java/ninckblokje/document/FixImages.java:61-67 | Every element that passes the test ends up in the kept list. |
| Classification.ClassifyMediaFiles | src/main/java/ninckblokje/document/FixImages.java:57-67 | The found and not-found lists are a permutation of the media list. A file is found exactly when some relationship targets it. |
| Classification.MissingMediaFiles | src/main/java/ninckblokje/document/FixImages.java:70-76 | A relationship is reported missing exactly when its target is not an `.xml` part (case-insensitive) and is not in the media list. Its target is reported unchanged. |
| Classification.ClassifyEmbeddedIds | src/main/java/ninckblokje/document/FixImages.java:79-88 | The found and not-found id lists are a permutation of the embedded ids. An id is found exactly when the relationship map has it as a key. |
| Classification.SplitTwoMediaFiles | src/main/java/ninckblokje/document/FixImages.java:57-67 | Of two media files, the one some relationship targets is found and the other is not found. |
| Classification.OneMissing | src/main/java/ninckblokje/document/FixImages.java:70-76 | When exactly one relationship has a non-XML target outside the folder, the report is that one entry with its target. |
| Classification.SplitTwoEmbeddedIds | src/main/java/ninckblokje/document/FixImages.java:79-88 | Of two embedded ids, the one the map has is found and the other is not found. |
| Classification.OrphanScenario | src/main/java/ninckblokje/document/FixImages.java:57-67 | With `rId5 -> media/image3.png`, `rId6 -> media/image4.png` and the files `image3.png` and `image9.png`, `image3.png` is found and `image9.png` is orphaned. |
| Classification.DanglingTargetScenario | src/main/java/ninckblokje/document/FixImages.java:70-76 | In the same package, `rId6 -> media/image4.png` is reported missing and nothing else is. |
| Classification.DanglingEmbedScenario | src/main/java/ninckblokje/document/FixImages.java:79-88 | In the same package, the embeds `rId5` and `rId9` sort into found `rId5` and not found `rId9`. |
| ReferenceGraph.ParseGraphics | src/main/java/ninckblokje/document/FixImages.java:285-313 | Parsing fails exactly when some graphic has a picture and a blip but lacks one of the attributes, and the error names that graphic. Otherwise it yields one record per such graphic, in document order, carrying its position, embed id and picture name. |
| ReferenceGraph.EmbeddedRelationIds | src/main/java/ninckblokje/document/FixImages.java:42-51 | The scan fails exactly when some blip lacks `r:embed`, and the error names the first such blip in document order. Otherwise an id is listed exactly when some blip embeds it. |
| ReferenceGraph.BlipPositions | src/main/java/ninckblokje/document/FixImages.java:42-43 | `//a:blip` selects the positions of exactly the elements that carry a blip, in increasing document order. |
| ReferenceGraph.EmbeddedRelationIdsInOrder | src/main/java/ninckblokje/document/FixImages.java:46-51 | The list has one id per blip: the j-th id is the `r:embed` of the j-th blip in document order, repeats included. |
| BlipQuery.CountPositiveIffMatch | src/main/java/ninckblokje/document/FixImages.java:216-230 | The count is positive exactly when some picture named after the file has a blip that embeds the placeholder. |
| BlipQuery.MatchPositions | src/main/java/ninckblokje/document/FixImages.java:216-230 | The positions of exactly the waiting pictures of the file, in increasing document order. |
| BlipQuery.CountAppend | src/main/java/ninckblokje/document/FixImages.java:216-230 | The count over two pieces of a document is the sum of their counts. |
| BlipQuery.CountIsNumberOfMatches | src/main/java/ninckblokje/document/FixImages.java:216-230 | The XPath `count()` equals the number of waiting positions. |
| BlipQuery.CountIsCardinality | src/main/java/ninckblokje/document/FixImages.java:216-230 | The XPath `count()` equals the size of the set of positions whose picture is named after the file and whose blip embeds the placeholder. |
| BlipQuery.IsImageMissing | src/main/java/ninckblokje/document/FixImages.java:212-214 | A file is missing exactly when some picture named after it still embeds the placeholder. |
| BlipQuery.FirstMatch | src/main/java/ninckblokje/document/FixImages.java:151-152 | The located blip is the first waiting one in document order. It is absent exactly when the count is zero. |
| BlipQuery.SetEmbed | src/main/java/ninckblokje/document/FixImages.java:153 | `setAttributeNS(..., "embed", id)` keeps the picture and gives the blip the embed `id`. |
| BlipQuery.SetEmbedMatches | src/main/java/ninckblokje/document/FixImages.java:151-153 | After the rewrite a waiting picture still waits exactly when the new id is the placeholder. |
| BlipQuery.RewriteAtFrame | src/main/java/ninckblokje/document/FixImages.java:151-153 | The rewrite changes only the located element, and there only the blip, which now embeds the new id. |
| BlipQuery.RewriteWithPlaceholder | src/main/java/ninckblokje/document/FixImages.java:151-153 | Relabelling a waiting picture with the placeholder leaves the document unchanged. |
| BlipQuery.RewriteMatchCount | src/main/java/ninckblokje/document/FixImages.java:151-153 | Relabelling one waiting blip lowers its file's count by one unless the new id is the placeholder. Other files' counts stay the same. |
| BlipQuery.RewriteKeepsOtherCounts | src/main/java/ninckblokje/document/FixImages.java:151-153 | Relabelling one waiting blip leaves every other file's count unchanged. |
| BlipQuery.RelabelStep | src/main/java/ninckblokje/document/FixImages.java:135-136 | One more repair iteration extends the relabelling by one id, applied to the first blip that is still waiting. |
| BlipQuery.RelabelCount | src/main/java/ninckblokje/document/FixImages.java:125-137 | After n relabellings with non-placeholder ids, the file's count has dropped by n and other files' counts are unchanged. |
| BlipQuery.RelabelTouchesOnlyMatches | src/main/java/ninckblokje/document/FixImages.java:151-153 | A graphic that changes was waiting for this file, and only its embed id changes. |
| Repair.Install | src/main/java/ninckblokje/document/FixImages.java:131-136 | The step fails exactly when the staging file is absent, the target media name exists, or no blip is waiting. On success it appends one relationship, adds one media name, relabels the first waiting blip, and lowers the count unless the id was the placeholder. |
| Repair.NewRelationship | src/main/java/ninckblokje/document/FixImages.java:156-163 | The appended relationship has the new id as `Id`, and its `Target` is `media/` followed by the new file name. |
| Repair.Iteration | src/main/java/ninckblokje/document/FixImages.java:125-137 | One loop turn as written issues rId v+1 and image w+1, and fails on the same conditions as the install. On success it appends `media/image<w+1>.jpeg` under `rId<v+1>` and adds that media name. It relabels the first waiting blip with `rId<v+1>` and keeps staging and done. |
| Repair.PlaceholderReissueKeepsMatch | src/main/java/ninckblokje/document/FixImages.java:125-137 | On a two-picture example whose table's largest id is one below the placeholder, the loop as written leaves one of the two waiting pictures unrepaired. |
| Repair.SafeIteration | src/main/java/ninckblokje/document/FixImages.java:125-137 | The corrected loop turn never uses the placeholder, and on success always lowers the file's count by one. |
| Repair.Retire | src/main/java/ninckblokje/document/FixImages.java:139-141 | Moving the staging file fails exactly when it is absent or already done. Otherwise it leaves staging and lands in done, and the document, table and media folder are unchanged. |
| Repair.SafeAllocation | src/main/java/ninckblokje/document/FixImages.java:125-137 | k corrected iterations append exactly k relationships. |
| Repair.SafeAllocationAt | src/main/java/ninckblokje/document/FixImages.java:156-163 | The j-th appended relationship pairs the j-th issued id with `media/image<seed+j+1>.jpeg`. |
| Repair.SafeAllocationIsFresh | src/main/java/ninckblokje/document/FixImages.java:119-145 | The appended ids are never the placeholder. Ids and targets are pairwise distinct. When the id seed was the table's largest id, no appended id collides with an existing one. When the image seed was the largest number in the media folder, no appended target names a file already there. |
| Repair.SafeAllocationIdsAreFresh | src/main/java/ninckblokje/document/FixImages.java:119-137 | The id half of the freshness promise: no placeholder, no repeats, and no collision with an existing id when seeded from the table's largest id. |
| Repair.SafeAllocationTargetIsFresh | src/main/java/ninckblokje/document/FixImages.java:127-133 | The `j`-th appended target names a file not yet in the media folder, when the image seed was the folder's largest number. |
| Repair.MediaTargetNotNull | src/main/java/ninckblokje/document/FixImages.java:156-163 | A `media/...` target is never the NULL target. |
| Repair.ImportedName | src/main/java/ninckblokje/document/FixImages.java:127-133 | The name the `j`-th iteration uses is among the names imported into the media folder. |
| Repair.NamedImport | src/main/java/ninckblokje/document/FixImages.java:127-133 | Every imported name is the name of some iteration: the `j`-th name above the image seed, for some `j < k`. |
| Repair.AllocationResolves | src/main/java/ninckblokje/document/FixImages.java:156-163 | Seeded from the table's largest id, each appended id resolves through the relationship map to its own `media/` target. |
| Repair.RepairResolves | src/main/java/ninckblokje/document/FixImages.java:119-145 | After the allocation of a repair, every new id resolves through the relationship map to `media/` plus a new name, and that name is in the media folder, so no repaired picture dangles. |
| Repair.AsWrittenIsWalkers | src/main/java/ninckblokje/document/FixImages.java:125-137 | The allocation as written is `createNewRelationship` of the `j`-th id and the `j`-th name the two walkers hand out. The issued ids are the id walker's. |
| Repair.WalkerPair | src/main/java/ninckblokje/document/FixImages.java:156-163 | The relationship built from the `j`-th issued id and name is the `j`-th relationship as written. |
| Repair.NewImageNamesAreWalkers | src/main/java/ninckblokje/document/FixImages.java:454-456 | The names `k` iterations import are exactly the names the image walker hands out, in both directions. |
| Repair.AllocatedExtend | src/main/java/ninckblokje/document/FixImages.java:125-137 | One more id and media name from the cursors extends the allocation state after `i` iterations to the state after `i + 1`. |
| Repair.ImagesStep | src/main/java/ninckblokje/document/FixImages.java:127-133 | Importing the name just above the image cursor and advancing the cursor keeps every numbered media name at or below the cursor. |
| Repair.SafeAllocationIsAsWritten | src/main/java/ninckblokje/document/FixImages.java:125-137 | When the placeholder's number is at or below the id seed, the corrected allocation equals the allocation as written, pair for pair. |
| Repair.SafeIterationIsIteration | src/main/java/ninckblokje/document/FixImages.java:125-137 | When the next id is not the placeholder, the corrected loop turn is the loop turn as written, result for result. |
| Repair.SafeAllocationStep | src/main/java/ninckblokje/document/FixImages.java:125-137 | One more corrected iteration appends one relationship, the next avoiding id paired with the next media name, and the id cursor ends on that id. |
| Repair.PairingsAppend | src/main/java/ninckblokje/document/FixImages.java:156-163 | Pairing two runs of ids one after the other continues the media names where the first run stopped. |
| Repair.SafeAllocationSplit | src/main/java/ninckblokje/document/FixImages.java:109-117 | a+b corrected iterations append the relationships of a iterations, then those of b more from where both cursors stopped. |
| Repair.NewImageNamesSplit | src/main/java/ninckblokje/document/FixImages.java:127-133 | a+b iterations import the media names of a iterations, then those of b more above the image cursor. |
| Repair.ImagesStayBelowCursor | src/main/java/ninckblokje/document/FixImages.java:171-190 | After media names up to the cursor are added, every numbered media name is still at most the cursor. |
| Repair.RelabelledStep | src/main/java/ninckblokje/document/FixImages.java:136 | One corrected iteration relabels exactly the next waiting blip. |
| Repair.AddMissingImage | src/main/java/ninckblokje/document/FixImages.java:119-145 | With the corrected cursor, all pictures of the file get fresh ids in document order. The table, media folder and cursors advance by exactly the allocation. The file's count ends at zero, and the staging file moves to done. When the media folder holds nothing above the image cursor and the file is staged but not done, it succeeds. |
| Repair.AllocatedStep | src/main/java/ninckblokje/document/FixImages.java:125-137 | One corrected iteration extends the table by the next relationship of the corrected allocation, and its id is the one the cursor now holds. |
| Repair.WrittenStep | src/main/java/ninckblokje/document/FixImages.java:125-137 | One iteration as written appends the next id/name pair, and lowers the count unless it issued the placeholder. |
| Repair.AsWrittenLabels | src/main/java/ninckblokje/document/FixImages.java:125-137 | The ids the as-written loop leaves in the document are at most one per iteration and never the placeholder. |
| Repair.WrittenContentStep | src/main/java/ninckblokje/document/FixImages.java:125-137 | One iteration as written imports the next media name and relabels the next waiting picture, unless the issued id is the placeholder. |
| Repair.AddMissingImageAsWritten | src/main/java/ninckblokje/document/FixImages.java:119-145 | As written, k iterations append ids v+1 … v+k with media names w+1 … w+k. The waiting pictures are relabelled in document order with those ids, the placeholder excepted. The file's count ends at one if one of those ids is the placeholder, and at zero otherwise. The staging file moves to done. |
| Repair.AddMissingImages | src/main/java/ninckblokje/document/FixImages.java:109-117 | After the driver, no candidate has a waiting picture and other files' counts are unchanged. Exactly the repaired candidates move from staging to done. The table and media folder grow by exactly one corrected run, shared across candidates, of as many iterations as the candidates had waiting pictures, each counted at its first listing. With nothing to repair it changes nothing, and with fresh seeds and staged files it succeeds. |
| Repair.RepairTotalStep | src/main/java/ninckblokje/document/FixImages.java:109-117 | Listing one more candidate adds its count of waiting pictures, or nothing when it was listed before. |
| Repair.ContinueRelationships | src/main/java/ninckblokje/document/FixImages.java:109-117 | A corrected run of n iterations followed by one of k more appends what one run of n+k iterations appends. |
| Repair.ContinueMedia | src/main/java/ninckblokje/document/FixImages.java:109-117 | The same for the media names imported. |
| Repair.ContinueCursor | src/main/java/ninckblokje/document/FixImages.java:109-117 | The same for where the id cursor ends. |
| Repair.AllocatedByContinue | src/main/java/ninckblokje/document/FixImages.java:109-117 | A state reached by n corrected iterations, followed by k more iterations from its cursors, is the state reached by n+k iterations. |
| Repair.RunAllocatedRepair | src/main/java/ninckblokje/document/FixImages.java:109-117 | Repairing the next, not yet listed candidate continues the shared corrected run by its count. |
| Repair.RunAllocatedSkip | src/main/java/ninckblokje/document/FixImages.java:109-117 | Passing over a candidate with nothing waiting, or one listed before, leaves the shared run where it was. |
| Repair.TwoCandidatesTotal | src/main/java/ninckblokje/document/FixImages.java:109-145 | For two different candidates waited on by two pictures and one picture, the counts are 2 and 1 and the run makes three iterations. |
| Repair.TwoCandidatesScenario | src/main/java/ninckblokje/document/FixImages.java:109-145 | Pictures `photoA.jpg`, `photoA.jpg` and `photoB.jpg` waiting on `rId7` give two repairs for `photoA.jpg`, one for `photoB.jpg`, and three new relationships in all. |
| Namespaces.NamespaceUri | src/main/java/ninckblokje/document/FixImages.java:235-249 | Exactly the four prefixes `a`, `pic`, `pr` and `r` resolve, each to a bound URI. Any other prefix is rejected. |
| Namespaces.PrefixOf | src/main/java/ninckblokje/document/FixImages.java:251-265 | Exactly the four bound URIs resolve back to a prefix. Any other URI is rejected. |
| Namespaces.NamespaceRoundTrip | src/main/java/ninckblokje/document/FixImages.java:235-265 | `getNamespaceURI` and `getPrefix` are inverse to each other on the four bound pairs. |
| Namespaces.PrefixesAsWritten | src/main/java/ninckblokje/document/FixImages.java:267-281 | As written, each bound URI lists exactly one prefix. |
| Namespaces.PrefixesDisagreeForPackageRelationships | src/main/java/ninckblokje/document/FixImages.java:251-281 | For the package-relationships URI, `getPrefixes` lists `pi`, `getPrefix` returns `pr`, and `pi` does not resolve. |
| Namespaces.PrefixesAsWrittenAgreeElsewhere | src/main/java/ninckblokje/document/FixImages.java:251-281 | On every URI but the package-relationships one, `getPrefixes` as written agrees with the corrected list. |
| Namespaces.Prefixes | src/main/java/ninckblokje/document/FixImages.java:267-281 | Corrected: each bound URI lists exactly one prefix, and that prefix resolves back to the URI. |

## Left out

- XML parsing, XPath evaluation and serialisation are not modelled. A document is a list of graphics, each with at most one picture and one blip: the first `.//pic:cNvPr` and the first `.//a:blip` below each `a:graphic`.
- Grouped or nested pictures are out of scope. Each `a:graphic` is assumed to hold at most one `pic:pic`, directly under `a:graphicData`. Under that assumption the `//a:blip` scan (line 42), `parseGraphics` (lines 285-313) and the count and rewrite queries (lines 151, 222) all see the same picture and blip. A group such as `a:graphicData/wpg:wgp/pic:pic` is matched by neither query in the source, and it gives the `//a:blip` scan one id per picture in the group.
- The folders are modelled as sets of names. This covers `data/working/word/media`, `data/missingImages` and `data/done`. `Files.list` order is a parameter, the candidate list. Copying file contents is not modelled.
- Printing to the console and the error stream is left out, including the print of graphics that embed `rId7` (lines 96-99). The ids the NULL-target report prints (line 363) are RelationshipIndex.NullTargetIds.
- The commented-out wiring in `main` (lines 101-106) is left out. The model exposes the operations it would call.
- `saveDocument` is left out.
- The `Type` attribute of a new relationship (line 160) is left out, because it is a constant the model never reads.
- `parsePictures` is left out, because it is never called.
- `parseMediaFiles` (lines 315-323) is left out. Its result, the `media/`-prefixed name list, is an input to the classification.
- Java `int` overflow in `Integer.parseInt` and in `idValue + 1` is not modelled. Numbers are unbounded naturals.
- The `double` loop counter and count in `addMissingImage` are left out. They are modelled as naturals, which is exact for any real document size.
- A `null` seed is left out. `getMaxRId` on an empty table and `getMaxImageFile` on an empty folder yield `None`. The repair takes a seed.
- Numbers are formatted with ASCII digits, as under a format locale whose zero digit is `0`. `String.format("rId%d")` and `String.format("image%d.jpeg")` (lines 488, 433) use the default locale's digits. Under a locale with other digits, such as Arabic-Indic, the ASCII `\d` of the parsers would reject the source's own ids, and the round trips would not hold.
- Upper- and lower-casing are ASCII only. `toUpperCase`/`toLowerCase` with a locale's special cases are not modelled.
- A missing `Id` or `Target` attribute in a relationship is not modelled: `Relationship` always has both.
- A picture name containing a double quote, which would break the XPath string, is not modelled.
- `missingMediaFiles` is modelled as the sub-map of the affected relationships rather than a list in hash order.
- Partial side effects are left out. When a copy, a lookup or the move fails mid-loop, the source keeps the earlier changes and throws; the model returns the error without a package.
- Repair.AddMissingImage and Repair.AddMissingImages use the placeholder-avoiding cursor (see Findings). The as-written loop is Repair.AddMissingImageAsWritten. When the placeholder's number is at or below the id seed, the two cursors issue the same ids (Allocation.AvoidingRunIsPlain, Repair.SafeAllocationIsAsWritten, Repair.SafeIterationIsIteration).
- ParseRIdValue: the contract only fixes the error it returns. Which texts parse, and to what, is stated by ParseRIdValueMatches.
- ParseImageFilename: the contract only fixes the error it returns and the prefix of an accepted name. Which names parse, and to what, is stated by ParseImageFilenameMatches.
- RIdOf: the contract only fixes the numeric value. That the text parses back to it is RIdRoundTrip.
- ImageFileOf: the contract only fixes the numeric value. That the name parses back to it is ImageFileRoundTrip.

## Findings

| source | as written | input that shows it | evidently intended | confidence | as-written member | corrected member |
|---|---|---|---|---|---|---|
| src/main/java/ninckblokje/document/FixImages.java:125-137 | The rId walker issues every number above the table's maximum. This includes the number whose text is the placeholder `rId7` that `updateGraphics` searches for. Relabelling a blip with `rId7` leaves it waiting, and the loop runs only as many times as the count taken before it started. | Table maximum `rId6`, and two pictures named `a.png` both embedding `rId7`. Iteration one issues `rId7` and "repairs" the first picture back to `rId7`. Iteration two relabels the same picture with `rId8`. One picture still embeds `rId7`, and a relationship `rId7` now points at a new image. | Every waiting picture receives a fresh id different from the placeholder. | not executed | Repair.PlaceholderReissueKeepsMatch | Repair.AddMissingImage |
| src/main/java/ninckblokje/document/FixImages.java:267-281 | `getPrefixes` lists `pi` for the package-relationships URI. `getPrefix` returns `pr`, and `pi` is not bound. | `getPrefixes("http://schemas.openxmlformats.org/package/2006/relationships")` | The list holds the same prefix `getPrefix` returns. | not executed | Namespaces.PrefixesDisagreeForPackageRelationships | Namespaces.Prefixes |

=== FILE: allocation.dfy ===
/**
  The two cursors that hand out fresh identifiers during a repair run:
  `RIdWalker` for relationship ids and `ImageFileWalker` for media file names.
  Each holds the last value issued (initially the seed, the largest existing
  one) and moves to the next number on every request; they advance
  independently of each other.
*/
module Allocation {
  import opened Wrappers
  import opened Errors
  import opened Identifiers

  datatype RIdWalker = RIdWalker(current: RId)

  datatype ImageFileWalker = ImageFileWalker(current: ImageFile)

  /**
    `RIdWalker.next()`, which is `RId.next`: the id numbered one above the
    cursor, in canonical `rId<N>` form; the cursor moves onto it.
  */
  function NextRId(w: RIdWalker): (r: (RIdWalker, RId))
    ensures r.1.idValue == w.current.idValue + 1
    ensures r.1 == RIdOf(r.1.idValue)
    ensures r.0.current == r.1
  {
    var n := RIdOf(w.current.idValue + 1);
    (RIdWalker(n), n)
  }

  /**
    `ImageFileWalker.next()`, which is `ImageFile.next`: the name numbered one
    above the cursor, `image<N>.jpeg`; the cursor moves onto it.
  */
  function NextImageFile(w: ImageFileWalker): (r: (ImageFileWalker, ImageFile))
    ensures r.1.idValue == w.current.idValue + 1
    ensures r.1 == ImageFileOf(r.1.idValue)
    ensures r.0.current == r.1
  {
    var f := ImageFileOf(w.current.idValue + 1);
    (ImageFileWalker(f), f)
  }

  /** The ids `k` successive calls of `next()` return, and the cursor afterwards. */
  function IssueRIds(w: RIdWalker, k: nat): (r: (seq<RId>, RIdWalker))
    ensures |r.0| == k
    ensures forall j :: 0 <= j < k ==> r.0[j] == RIdOf(w.current.idValue + j + 1)
    ensures r.1.current.idValue == w.current.idValue + k
    decreases k
  {
    if k == 0 then ([], w)
    else
      var (w1, first) := NextRId(w);
      var (rest, w2) := IssueRIds(w1, k - 1);
      ([first] + rest, w2)
  }

  /** The names `k` successive calls of `next()` return, and the cursor afterwards. */
  function IssueImageFiles(w: ImageFileWalker, k: nat): (r: (seq<ImageFile>, ImageFileWalker))
    ensures |r.0| == k
    ensures forall j :: 0 <= j < k ==> r.0[j] == ImageFileOf(w.current.idValue + j + 1)
    ensures r.1.current.idValue == w.current.idValue + k
    decreases k
  {
    if k == 0 then ([], w)
    else
      var (w1, first) := NextImageFile(w);
      var (rest, w2) := IssueImageFiles(w1, k - 1);
      ([first] + rest, w2)
  }

  /**
    Over a run the cursor issues `m+1, m+2, ...`: every id lies above the seed,
    later ids are larger, and no id text is ever issued twice.
  */
  lemma {:induction false} IssuedRIdsIncreaseAndDiffer(w: RIdWalker, k: nat)
    ensures var ids := IssueRIds(w, k).0;
      && (forall j :: 0 <= j < k ==> w.current.idValue < ids[j].idValue)
      && (forall i, j :: 0 <= i < j < k ==> ids[i].idValue < ids[j].idValue && ids[i].rId != ids[j].rId)
  {
    var ids := IssueRIds(w, k).0;
    forall i, j | 0 <= i < j < k
      ensures ids[i].rId != ids[j].rId
    {
      var a, b := w.current.idValue + i + 1, w.current.idValue + j + 1;
      assert ids[i].rId == FormatRId(a) && ids[j].rId == FormatRId(b);
      FormatRIdInjective(a, b);
    }
  }

  /** The same for media names: above the seed, increasing, never repeated. */
  lemma {:induction false} IssuedImageFilesIncreaseAndDiffer(w: ImageFileWalker, k: nat)
    ensures var fs := IssueImageFiles(w, k).0;
      && (forall j :: 0 <= j < k ==> w.current.idValue < fs[j].idValue)
      && (forall i, j :: 0 <= i < j < k ==> fs[i].idValue < fs[j].idValue && fs[i].filename != fs[j].filename)
  {
    var fs := IssueImageFiles(w, k).0;
    forall i, j | 0 <= i < j < k
      ensures fs[i].filename != fs[j].filename
    {
      var a, b := w.current.idValue + i + 1, w.current.idValue + j + 1;
      assert fs[i].filename == FormatImageFile(a) && fs[j].filename == FormatImageFile(b);
      FormatImageFileInjective(a, b);
    }
  }

  /** Every name in `media` is a parsable image name numbered at most `bound`. */
  ghost predicate ImagesAtMost(media: set<string>, bound: nat) {
    forall name :: name in media ==> ParseImageFilename(name).Success? && ParseImageFilename(name).value <= bound
  }

  /** Every id in `ids` is a parsable relationship id numbered at most `bound`. */
  ghost predicate RIdsAtMost(ids: seq<string>, bound: nat) {
    forall id :: id in ids ==> ParseRIdValue(id).Success? && ParseRIdValue(id).value <= bound
  }

  /**
    Seeded from the largest number in the media folder, the cursor never names
    a file already there, so the copy into the media folder cannot collide.
  */
  lemma IssuedImageFileIsFresh(media: set<string>, bound: nat, n: nat)
    requires ImagesAtMost(media, bound)
    requires bound < n
    ensures FormatImageFile(n) !in media
  {
    ImageFileRoundTrip(n);
  }

  /** Seeded from the largest id in the table, the cursor never repeats an existing id. */
  lemma IssuedRIdIsFresh(ids: seq<string>, bound: nat, n: nat)
    requires RIdsAtMost(ids, bound)
    requires bound < n
    ensures FormatRId(n) !in ids
  {
    RIdRoundTrip(n);
  }

  /**
    The repair's `next()` for relationship ids, steering clear of the
    placeholder: it issues the next id, or the one after when the next one is
    the placeholder itself.
  */
  function NextRIdAvoiding(w: RIdWalker, placeholder: string): (r: (RIdWalker, RId))
    ensures r.1.rId != placeholder
    ensures w.current.idValue < r.1.idValue <= w.current.idValue + 2
    ensures r.1.idValue == AvoidingStep(w.current.idValue, placeholder)
    ensures r.1 == RIdOf(r.1.idValue)
    ensures r.0.current == r.1
  {
    var (w1, n) := NextRId(w);
    PlaceholderNumberOf(n.idValue, placeholder);
    if n.rId == placeholder then
      FormatRIdInjective(n.idValue, n.idValue + 1);
      NextRId(w1)
    else
      (w1, n)
  }

  /** The number the placeholder-avoiding cursor issues after `n`. */
  function AvoidingStep(n: nat, placeholder: string): nat {
    if PlaceholderNumber(placeholder) == Some(n + 1) then n + 2 else n + 1
  }

  /** The number whose canonical id text is the placeholder, if there is one. */
  function PlaceholderNumber(placeholder: string): Option<nat> {
    match ParseRIdValue(placeholder)
    case Success(m) => if FormatRId(m) == placeholder then Some(m) else None
    case Failure(_) => None
  }

  /** The cursor would issue the placeholder at `m` exactly when `m` is the placeholder's number. */
  lemma PlaceholderNumberOf(m: nat, placeholder: string)
    ensures FormatRId(m) == placeholder <==> PlaceholderNumber(placeholder) == Some(m)
  {
    if FormatRId(m) == placeholder {
      RIdRoundTrip(m);
    }
  }

  /** The last number issued, or the seed when nothing has been issued yet. */
  function LastIssued(seed: nat, ns: seq<nat>): nat {
    if |ns| == 0 then seed else ns[|ns| - 1]
  }

  /** The numbers of `k` successive ids the placeholder-avoiding cursor issues from `seed`. */
  function AvoidingRun(seed: nat, k: nat, placeholder: string): (ns: seq<nat>)
    ensures |ns| == k
  {
    if k == 0 then []
    else
      var prev := AvoidingRun(seed, k - 1, placeholder);
      prev + [AvoidingStep(LastIssued(seed, prev), placeholder)]
  }

  /**
    The avoiding cursor issues numbers above the seed in strictly increasing
    order, never the placeholder's text, and ends on the largest of them at
    least `k` above the seed.
  */
  lemma {:induction false} AvoidingRunFresh(seed: nat, k: nat, placeholder: string)
    ensures var ns := AvoidingRun(seed, k, placeholder);
      && (forall j :: 0 <= j < k ==> seed < ns[j] && FormatRId(ns[j]) != placeholder)
      && (forall i, j :: 0 <= i < j < k ==> ns[i] < ns[j])
      && (forall j :: 0 <= j < k ==> ns[j] <= LastIssued(seed, ns))
      && seed + k <= LastIssued(seed, ns)
  {
    if k > 0 {
      var prev := AvoidingRun(seed, k - 1, placeholder);
      AvoidingRunFresh(seed, k - 1, placeholder);
      var top := LastIssued(seed, prev);
      FormatRIdInjective(top + 1, top + 2);
      PlaceholderNumberOf(top + 1, placeholder);
      PlaceholderNumberOf(top + 2, placeholder);
      var ns := AvoidingRun(seed, k, placeholder);
      assert ns == prev + [AvoidingStep(top, placeholder)];
    }
  }

  /**
    A run of `a + b` steps is a run of `a` steps followed by a run of `b` steps
    from where the first stopped: a cursor handed from one candidate to the next
    issues the same ids as one cursor used throughout.
  */
  lemma {:induction false} AvoidingRunSplit(seed: nat, a: nat, b: nat, placeholder: string)
    ensures var first := AvoidingRun(seed, a, placeholder);
      var second := AvoidingRun(LastIssued(seed, first), b, placeholder);
      && AvoidingRun(seed, a + b, placeholder) == first + second
      && LastIssued(seed, first + second) == LastIssued(LastIssued(seed, first), second)
  {
    var first := AvoidingRun(seed, a, placeholder);
    var mid := LastIssued(seed, first);
    if b == 0 {
      assert first + [] == first;
    } else {
      AvoidingRunSplit(seed, a, b - 1, placeholder);
      var second' := AvoidingRun(mid, b - 1, placeholder);
      var whole' := AvoidingRun(seed, a + b - 1, placeholder);
      assert whole' == first + second';
      var next := AvoidingStep(LastIssued(mid, second'), placeholder);
      var second := second' + [next];
      assert AvoidingRun(mid, b, placeholder) == second;
      assert AvoidingRun(seed, a + b, placeholder) == whole' + [next];
      assert first + second == whole' + [next];
      assert LastIssued(seed, first + second) == next == LastIssued(mid, second);
    }
  }

  /**
    When the placeholder is not the text of any number above the seed, the
    avoiding cursor never has to skip, and it issues what the plain walker
    issues: `seed + 1, seed + 2, ...`.
  */
  lemma {:induction false} AvoidingRunIsPlain(seed: nat, k: nat, placeholder: string)
    requires PlaceholderNumber(placeholder).None? || PlaceholderNumber(placeholder).value <= seed
    ensures forall j :: 0 <= j < k ==> AvoidingRun(seed, k, placeholder)[j] == seed + j + 1
    ensures LastIssued(seed, AvoidingRun(seed, k, placeholder)) == seed + k
  {
    if k > 0 {
      var prev := AvoidingRun(seed, k - 1, placeholder);
      AvoidingRunIsPlain(seed, k - 1, placeholder);
      assert AvoidingRun(seed, k, placeholder) == prev + [AvoidingStep(LastIssued(seed, prev), placeholder)];
    }
  }
}

=== FILE: classification.dfy ===
/**
  The reconciliation report `main` computes before any repair: which media
  files are referenced, which relationship targets are missing on disk, and
  which embedded blip ids resolve. Media files are listed as the relationship
  table spells them (`media/<name>`).
*/
module Classification {
  import opened RelationshipIndex

  /** The elements of `xs` that satisfy `p`, in order (an `ArrayList` filled by a `forEach`). */
  function Filter<T>(xs: seq<T>, p: T -> bool): (r: seq<T>)
    ensures |r| <= |xs|
    ensures forall x :: x in r ==> x in xs && p(x)
  {
    if |xs| == 0 then []
    else if p(xs[0]) then [xs[0]] + Filter(xs[1..], p)
    else Filter(xs[1..], p)
  }

  /** The complement of a test. */
  function Not<T>(p: T -> bool): T -> bool {
    x => !p(x)
  }

  /** The two lists a `forEach` with an if/else fills are, together, a permutation of the input. */
  lemma {:induction false} FilterPartition<T>(xs: seq<T>, p: T -> bool)
    ensures multiset(Filter(xs, p)) + multiset(Filter(xs, Not(p))) == multiset(xs)
  {
    if |xs| > 0 {
      FilterPartition(xs[1..], p);
      assert xs == [xs[0]] + xs[1..];
    }
  }

  /** Every element of `xs` that satisfies `p` is kept. */
  lemma {:induction false} FilterKeeps<T>(xs: seq<T>, p: T -> bool, x: T)
    requires x in xs && p(x)
    ensures x in Filter(xs, p)
  {
    if xs[0] != x {
      FilterKeeps(xs[1..], p, x);
    }
  }

  /**
    `foundMediaFiles` / `notFoundMediaFiles`: the media files split by whether
    some relationship targets them. Together they are the media list; a file
    is in the first exactly when it is a relationship target.
  */
  function ClassifyMediaFiles(mediaFiles: seq<string>, relations: map<string, string>): (r: (seq<string>, seq<string>))
    ensures multiset(r.0) + multiset(r.1) == multiset(mediaFiles)
    ensures forall f :: f in r.0 <==> f in mediaFiles && f in relations.Values
    ensures forall f :: f in r.1 <==> f in mediaFiles && f !in relations.Values
  {
    var referenced := (f: string) => f in relations.Values;
    var found := Filter(mediaFiles, referenced);
    var notFound := Filter(mediaFiles, Not(referenced));
    FilterPartition(mediaFiles, referenced);
    assert forall f :: f in mediaFiles && f in relations.Values ==> f in found by {
      forall f | f in mediaFiles && f in relations.Values { FilterKeeps(mediaFiles, referenced, f); }
    }
    assert forall f :: f in mediaFiles && f !in relations.Values ==> f in notFound by {
      forall f | f in mediaFiles && f !in relations.Values { FilterKeeps(mediaFiles, Not(referenced), f); }
    }
    (found, notFound)
  }

  /** ASCII lower-casing of one character. */
  function LowerAscii(c: char): char {
    if 'A' <= c <= 'Z' then (c as int + 32) as char else c
  }

  /** `target.toLowerCase().endsWith(".xml")`, with ASCII case folding. */
  predicate IsXmlPart(target: string) {
    && 4 <= |target|
    && forall i :: 0 <= i < 4 ==> LowerAscii(target[|target| - 4 + i]) == ".xml"[i]
  }

  /**
    `missingMediaFiles`: one entry per relationship whose target is not an XML
    part and is not in the media list. It is kept here as the sub-map of those
    relationships (the source's list holds their targets, in hash order).
  */
  function MissingMediaFiles(relations: map<string, string>, mediaFiles: seq<string>): (missing: map<string, string>)
    ensures forall id :: id in missing <==> id in relations && !IsXmlPart(relations[id]) && relations[id] !in mediaFiles
    ensures forall id :: id in missing ==> missing[id] == relations[id]
    ensures forall t :: t in missing.Values <==> t in relations.Values && !IsXmlPart(t) && t !in mediaFiles
  {
    var missing := map id | id in relations && !IsXmlPart(relations[id]) && relations[id] !in mediaFiles :: relations[id];
    assert forall t :: t in relations.Values && !IsXmlPart(t) && t !in mediaFiles ==> t in missing.Values by {
      forall t | t in relations.Values && !IsXmlPart(t) && t !in mediaFiles
        ensures t in missing.Values
      {
        var id :| id in relations && relations[id] == t;
        assert missing[id] == t;
      }
    }
    missing
  }

  /**
    `foundEmbeddedRelationIds` / `notFoundEmbeddedRelationIds`: the embedded
    blip ids split by whether the relationship index has them as a key.
  */
  function ClassifyEmbeddedIds(embeddedIds: seq<string>, relations: map<string, string>): (r: (seq<string>, seq<string>))
    ensures multiset(r.0) + multiset(r.1) == multiset(embeddedIds)
    ensures forall id :: id in r.0 <==> id in embeddedIds && id in relations
    ensures forall id :: id in r.1 <==> id in embeddedIds && id !in relations
  {
    var resolves := (id: string) => id in relations;
    var found := Filter(embeddedIds, resolves);
    var notFound := Filter(embeddedIds, Not(resolves));
    FilterPartition(embeddedIds, resolves);
    assert forall id :: id in embeddedIds && id in relations ==> id in found by {
      forall id | id in embeddedIds && id in relations { FilterKeeps(embeddedIds, resolves, id); }
    }
    assert forall id :: id in embeddedIds && id !in relations ==> id in notFound by {
      forall id | id in embeddedIds && id !in relations { FilterKeeps(embeddedIds, Not(resolves), id); }
    }
    (found, notFound)
  }

  /**
    A worked package: `rId5` points at a media file that is there and `rId6` at
    one that is not; the media folder also holds a file nothing points at.
  */
  const ExampleRelations: map<string, string> :=
    map["rId5" := "media/image3.png", "rId6" := "media/image4.png"]

  const ExampleMedia: seq<string> := ["media/image3.png", "media/image9.png"]

  /** Only the file nothing points at is orphaned. */
  lemma OrphanScenario()
    ensures ClassifyMediaFiles(ExampleMedia, ExampleRelations) == (["media/image3.png"], ["media/image9.png"])
  {
    assert ExampleRelations["rId5"] == "media/image3.png";
    assert "media/image9.png" !in ExampleRelations.Values;
    SplitTwoMediaFiles(ExampleRelations, "media/image3.png", "media/image9.png");
  }

  /** Only the relationship whose media file is absent is missing. */
  lemma DanglingTargetScenario()
    ensures MissingMediaFiles(ExampleRelations, ExampleMedia) == map["rId6" := "media/image4.png"]
  {
    assert !IsXmlPart("media/image4.png") by {
      assert LowerAscii("media/image4.png"[13]) != ".xml"[1];
    }
    assert "media/image4.png" !in ExampleMedia;
    assert ExampleRelations["rId5"] in ExampleMedia;
    OneMissing(ExampleRelations, ExampleMedia, "rId6");
  }

  /** An embed without a relationship is not found; one with a relationship is. */
  lemma DanglingEmbedScenario()
    ensures ClassifyEmbeddedIds(["rId5", "rId9"], ExampleRelations) == (["rId5"], ["rId9"])
  {
    SplitTwoEmbeddedIds(ExampleRelations, "rId5", "rId9");
  }

  /** Of two media files, the referenced one is found and the other is not. */
  lemma SplitTwoMediaFiles(relations: map<string, string>, a: string, b: string)
    requires a in relations.Values && b !in relations.Values
    ensures ClassifyMediaFiles([a, b], relations) == ([a], [b])
  {
    var r := ClassifyMediaFiles([a, b], relations);
    SingletonSplit([a, b], r.0, r.1, a, b);
  }

  /** Of two embedded ids, the one with a relationship is found and the other is not. */
  lemma SplitTwoEmbeddedIds(relations: map<string, string>, a: string, b: string)
    requires a in relations && b !in relations
    ensures ClassifyEmbeddedIds([a, b], relations) == ([a], [b])
  {
    var r := ClassifyEmbeddedIds([a, b], relations);
    SingletonSplit([a, b], r.0, r.1, a, b);
  }

  /** When exactly one relationship points at a non-XML target outside the folder, that is the whole report. */
  lemma OneMissing(relations: map<string, string>, media: seq<string>, k: string)
    requires k in relations && !IsXmlPart(relations[k]) && relations[k] !in media
    requires forall id :: id in relations && id != k ==> relations[id] in media
    ensures MissingMediaFiles(relations, media) == map[k := relations[k]]
  {
    var missing := MissingMediaFiles(relations, media);
    assert missing.Keys == {k};
  }

  /** Two distinct elements, split so that each side holds exactly one of them. */
  lemma SingletonSplit(xs: seq<string>, left: seq<string>, right: seq<string>, a: string, b: string)
    requires xs == [a, b]
    requires multiset(left) + multiset(right) == multiset(xs)
    requires a in left && b !in left && b in right && a !in right
    ensures left == [a] && right == [b]
  {
    assert |left| + |right| == 2 by {
      assert |multiset(left) + multiset(right)| == |multiset(xs)|;
    }
    assert 0 < |left| && 0 < |right|;
    assert left[0] in multiset(xs) by { assert left[0] in multiset(left); }
    assert right[0] in multiset(xs) by { assert right[0] in multiset(right); }
  }
}

=== FILE: errors.dfy ===
/** The failures the repair tool can run into, one per exception it lets escape. */
module Errors {

  datatype Error =
    /** A name or id does not match its pattern (`Matcher.group` after a failed `find`). */
    | ParseError(text: string)
    /** A graphic element has a `cNvPr` or `blip` node without the attribute read from it. */
    | LookupError(index: nat)
    /** A namespace prefix or URI outside the fixed table. */
    | UnknownNamespace(key: string)
    /** `Files.copy` / `Files.move` on a source that is not there. */
    | NoSuchFile(name: string)
    /** `Files.copy` / `Files.move` onto a name that is already taken. */
    | FileExists(name: string)
    /** `updateGraphics` found no blip to rewrite (a null element). */
    | NoMatchingBlip(name: string)
}

=== FILE: graphics.dfy ===
/**
  The document body as the repair sees it: the `a:graphic` elements in
  document order, each with at most one picture properties node (`pic:cNvPr`,
  carrying the display `name`) and at most one image blip (`a:blip`, carrying
  the relationship id in `r:embed`). Each element is taken to hold at most
  one `pic:pic`, directly under `a:graphicData`, so that the blip scan, the
  graphics listing and the count and rewrite queries all see the same nodes.
*/
module ReferenceGraph {
  import opened Wrappers
  import opened Errors

  /** A `pic:cNvPr` node and its `name` attribute, which may be absent. */
  datatype PictureNode = PictureNode(name: Option<string>)

  /** An `a:blip` node and its `r:embed` attribute, which may be absent. */
  datatype BlipNode = BlipNode(embed: Option<string>)

  datatype GraphicElement = GraphicElement(picture: Option<PictureNode>, blip: Option<BlipNode>)

  /** A `Graphic`: position among all graphic elements, blip id, display name. */
  datatype Graphic = Graphic(index: nat, relationId: string, filename: string)

  /** The element carries both nodes, so `parseGraphics` reports it. */
  predicate IsPicture(g: GraphicElement) {
    g.picture.Some? && g.blip.Some?
  }

  /** A reported element also has both attributes the record is built from. */
  predicate HasAttributes(g: GraphicElement) {
    IsPicture(g) && g.picture.value.name.Some? && g.blip.value.embed.Some?
  }

  /** `g` is the record the source builds for element `g.index` of `doc`. */
  ghost predicate Describes(g: Graphic, doc: seq<GraphicElement>) {
    && g.index < |doc|
    && HasAttributes(doc[g.index])
    && doc[g.index].blip.value.embed == Some(g.relationId)
    && doc[g.index].picture.value.name == Some(g.filename)
  }

  /** The element positions a list of records carries, in order. */
  function Indices(gs: seq<Graphic>): seq<nat> {
    seq(|gs|, j requires 0 <= j < |gs| => gs[j].index)
  }

  /**
    `parseGraphics`: one record per graphic element that has both a picture
    node and a blip, in document order, carrying the element's position. An
    element with both nodes but without the `name` or `r:embed` attribute makes
    the source dereference null; the first such element is a `LookupError`.
  */
  method ParseGraphics(doc: seq<GraphicElement>) returns (r: Result<seq<Graphic>, Error>)
    ensures r.Failure? <==> exists i :: 0 <= i < |doc| && IsPicture(doc[i]) && !HasAttributes(doc[i])
    ensures r.Failure? ==> exists i :: (0 <= i < |doc| && r.error == LookupError(i) && IsPicture(doc[i]) && !HasAttributes(doc[i])
      && forall j :: 0 <= j < i && IsPicture(doc[j]) ==> HasAttributes(doc[j]))
    ensures r.Success? ==> forall j :: 0 <= j < |r.value| ==> Describes(r.value[j], doc)
    ensures r.Success? ==> forall j, k :: 0 <= j < k < |r.value| ==> r.value[j].index < r.value[k].index
    ensures r.Success? ==> forall i :: 0 <= i < |doc| && IsPicture(doc[i]) ==> i in Indices(r.value)
  {
    var graphics: seq<Graphic> := [];
    for i := 0 to |doc|
      invariant forall j :: 0 <= j < |graphics| ==> Describes(graphics[j], doc) && graphics[j].index < i
      invariant forall j, k :: 0 <= j < k < |graphics| ==> graphics[j].index < graphics[k].index
      invariant forall i' :: 0 <= i' < i && IsPicture(doc[i']) ==> HasAttributes(doc[i'])
      invariant forall i' :: 0 <= i' < i && IsPicture(doc[i']) ==> i' in Indices(graphics)
    {
      var g := doc[i];
      if g.picture.Some? && g.blip.Some? {
        if g.picture.value.name.None? || g.blip.value.embed.None? {
          return Failure(LookupError(i));
        }
        var record := Graphic(i, g.blip.value.embed.value, g.picture.value.name.value);
        assert Indices(graphics + [record]) == Indices(graphics) + [i];
        graphics := graphics + [record];
      }
    }
    return Success(graphics);
  }

  /** The positions of the elements that carry a blip, in document order. */
  function BlipPositions(doc: seq<GraphicElement>): (ps: seq<nat>)
    ensures forall j :: 0 <= j < |ps| ==> ps[j] < |doc| && doc[ps[j]].blip.Some?
    ensures forall j, k :: 0 <= j < k < |ps| ==> ps[j] < ps[k]
    ensures forall i :: 0 <= i < |doc| && doc[i].blip.Some? ==> i in ps
  {
    if |doc| == 0 then []
    else
      var prefix := doc[..|doc| - 1];
      assert forall i :: 0 <= i < |prefix| ==> prefix[i] == doc[i];
      if doc[|doc| - 1].blip.Some? then BlipPositions(prefix) + [|doc| - 1] else BlipPositions(prefix)
  }

  /**
    The `r:embed` values of every blip, in document order (the `//a:blip`
    scan in `main`), one per blip, repeats included. A blip without the
    attribute makes the source dereference null: a `LookupError` for the first
    such element.
  */
  function EmbeddedRelationIds(doc: seq<GraphicElement>): (r: Result<seq<string>, Error>)
    ensures r.Success? <==> forall i :: 0 <= i < |doc| && doc[i].blip.Some? ==> doc[i].blip.value.embed.Some?
    ensures r.Failure? ==>
      && r.error.LookupError? && r.error.index < |doc|
      && doc[r.error.index].blip.Some? && doc[r.error.index].blip.value.embed.None?
      && forall j :: 0 <= j < r.error.index && doc[j].blip.Some? ==> doc[j].blip.value.embed.Some?
    ensures r.Success? ==> forall id :: id in r.value <==> exists i :: 0 <= i < |doc| && doc[i].blip.Some? && doc[i].blip.value.embed == Some(id)
  {
    if |doc| == 0 then Success([])
    else
      var prefix := doc[..|doc| - 1];
      var last := doc[|doc| - 1];
      assert forall i :: 0 <= i < |prefix| ==> prefix[i] == doc[i];
      match EmbeddedRelationIds(prefix)
      case Failure(e) => Failure(e)
      case Success(ids) =>
        if last.blip.None? then Success(ids)
        else if last.blip.value.embed.None? then Failure(LookupError(|doc| - 1))
        else Success(ids + [last.blip.value.embed.value])
  }

  /**
    The scan lists one id per blip, in document order: the `j`-th id is the
    embed of the `j`-th element that carries a blip, repeats included.
  */
  lemma {:induction false} EmbeddedRelationIdsInOrder(doc: seq<GraphicElement>)
    requires EmbeddedRelationIds(doc).Success?
    ensures var ids := EmbeddedRelationIds(doc).value;
      && |ids| == |BlipPositions(doc)|
      && forall j :: 0 <= j < |ids| ==> doc[BlipPositions(doc)[j]].blip.value.embed == Some(ids[j])
  {
    if |doc| > 0 {
      var prefix := doc[..|doc| - 1];
      assert forall i :: 0 <= i < |prefix| ==> prefix[i] == doc[i];
      EmbeddedRelationIdsInOrder(prefix);
    }
  }
}

/**
  The two queries the repair runs against the document for a candidate file
  and the placeholder id: count the pictures named like the file whose blip
  still carries the placeholder (`imageMissingCount`), and rewrite the first of
  them (`updateGraphics`).
*/
module BlipQuery {
  import opened Wrappers
  import opened ReferenceGraph

  /** The element is a picture named `name` whose blip points at `placeholder`. */
  predicate IsMatch(g: GraphicElement, name: string, placeholder: string) {
    && g.picture.Some? && g.picture.value.name == Some(name)
    && g.blip.Some? && g.blip.value.embed == Some(placeholder)
  }

  /** `imageMissingCount`: how many elements match (an XPath `count()`, kept integral). */
  function ImageMissingCount(doc: seq<GraphicElement>, name: string, placeholder: string): nat {
    if |doc| == 0 then 0
    else (if IsMatch(doc[0], name, placeholder) then 1 else 0) + ImageMissingCount(doc[1..], name, placeholder)
  }

  lemma {:induction false} CountPositiveIffMatch(doc: seq<GraphicElement>, name: string, placeholder: string)
    ensures 0 < ImageMissingCount(doc, name, placeholder) <==> exists i :: 0 <= i < |doc| && IsMatch(doc[i], name, placeholder)
  {
    if |doc| > 0 {
      CountPositiveIffMatch(doc[1..], name, placeholder);
      if exists i :: 0 <= i < |doc| && IsMatch(doc[i], name, placeholder) {
        var i :| 0 <= i < |doc| && IsMatch(doc[i], name, placeholder);
        if i > 0 {
          assert doc[1..][i - 1] == doc[i];
        }
      }
      if exists i :: 0 <= i < |doc[1..]| && IsMatch(doc[1..][i], name, placeholder) {
        var i :| 0 <= i < |doc[1..]| && IsMatch(doc[1..][i], name, placeholder);
        assert doc[i + 1] == doc[1..][i];
      }
    }
  }

  /** `isImageMissing`: the count is at least one, i.e. some element matches. */
  function IsImageMissing(doc: seq<GraphicElement>, name: string, placeholder: string): (missing: bool)
    ensures missing <==> exists i :: 0 <= i < |doc| && IsMatch(doc[i], name, placeholder)
  {
    CountPositiveIffMatch(doc, name, placeholder);
    ImageMissingCount(doc, name, placeholder) >= 1
  }

  /** The element an XPath `NODE` evaluation returns: the first match in document order. */
  function FirstMatch(doc: seq<GraphicElement>, name: string, placeholder: string): (r: Option<nat>)
    ensures r.Some? ==> r.value < |doc| && IsMatch(doc[r.value], name, placeholder)
    ensures r.Some? ==> forall j :: 0 <= j < r.value ==> !IsMatch(doc[j], name, placeholder)
    ensures r.None? <==> ImageMissingCount(doc, name, placeholder) == 0
  {
    if |doc| == 0 then None
    else if IsMatch(doc[0], name, placeholder) then Some(0)
    else match FirstMatch(doc[1..], name, placeholder)
      case None => None
      case Some(i) => Some(i + 1)
  }

  /** `setAttributeNS(..., "embed", id)` on the element's blip. */
  function SetEmbed(g: GraphicElement, id: string): (e: GraphicElement)
    requires g.blip.Some?
    ensures e.picture == g.picture && e.blip.Some? && e.blip.value.embed == Some(id)
  {
    g.(blip := Some(BlipNode(Some(id))))
  }

  /** After the rewrite the element is still waiting exactly when its picture is named `name` and `id` is the placeholder. */
  lemma SetEmbedMatches(g: GraphicElement, id: string, name: string, placeholder: string)
    requires IsMatch(g, name, placeholder)
    ensures IsMatch(SetEmbed(g, id), name, placeholder) <==> id == placeholder
  {
  }

  /** The document with element `i`'s blip pointed at `id`. */
  function RewriteAt(doc: seq<GraphicElement>, i: nat, id: string): (d: seq<GraphicElement>)
    requires i < |doc| && doc[i].blip.Some?
    ensures |d| == |doc|
  {
    doc[i := SetEmbed(doc[i], id)]
  }

  /** The rewrite changes only element `i`, and there only the blip's embed. */
  lemma RewriteAtFrame(doc: seq<GraphicElement>, i: nat, id: string)
    requires i < |doc| && doc[i].blip.Some?
    ensures var d := RewriteAt(doc, i, id);
      && (forall j :: 0 <= j < |doc| && j != i ==> d[j] == doc[j])
      && d[i].picture == doc[i].picture && d[i].blip == Some(BlipNode(Some(id)))
  {
  }

  /** Pointing a waiting element at the placeholder again changes nothing. */
  lemma RewriteWithPlaceholder(doc: seq<GraphicElement>, i: nat, name: string, placeholder: string)
    requires i < |doc| && IsMatch(doc[i], name, placeholder)
    ensures RewriteAt(doc, i, placeholder) == doc
  {
    assert SetEmbed(doc[i], placeholder) == doc[i];
  }

  /** The positions of the waiting elements, in document order. */
  function MatchPositions(doc: seq<GraphicElement>, name: string, placeholder: string): (ps: seq<nat>)
    ensures forall j :: 0 <= j < |ps| ==> ps[j] < |doc| && IsMatch(doc[ps[j]], name, placeholder)
    ensures forall j, k :: 0 <= j < k < |ps| ==> ps[j] < ps[k]
    ensures forall i :: 0 <= i < |doc| && IsMatch(doc[i], name, placeholder) ==> i in ps
  {
    if |doc| == 0 then []
    else
      var prefix := doc[..|doc| - 1];
      assert forall i :: 0 <= i < |prefix| ==> prefix[i] == doc[i];
      var ps := MatchPositions(prefix, name, placeholder);
      if IsMatch(doc[|doc| - 1], name, placeholder) then ps + [|doc| - 1] else ps
  }

  /** Counting over two pieces of a document adds up. */
  lemma {:induction false} CountAppend(a: seq<GraphicElement>, b: seq<GraphicElement>, name: string, placeholder: string)
    ensures ImageMissingCount(a + b, name, placeholder)
      == ImageMissingCount(a, name, placeholder) + ImageMissingCount(b, name, placeholder)
  {
    if |a| > 0 {
      assert (a + b)[1..] == a[1..] + b;
      CountAppend(a[1..], b, name, placeholder);
    } else {
      assert a + b == b;
    }
  }

  /** The XPath `count()` is the number of waiting elements. */
  lemma {:induction false} CountIsNumberOfMatches(doc: seq<GraphicElement>, name: string, placeholder: string)
    ensures ImageMissingCount(doc, name, placeholder) == |MatchPositions(doc, name, placeholder)|
  {
    if |doc| > 0 {
      var prefix := doc[..|doc| - 1];
      assert doc == prefix + [doc[|doc| - 1]];
      CountAppend(prefix, [doc[|doc| - 1]], name, placeholder);
      CountIsNumberOfMatches(prefix, name, placeholder);
    }
  }

  /** The same, as the size of the set of waiting positions. */
  lemma CountIsCardinality(doc: seq<GraphicElement>, name: string, placeholder: string)
    ensures ImageMissingCount(doc, name, placeholder) == |set i | 0 <= i < |doc| && IsMatch(doc[i], name, placeholder)|
  {
    var ps := MatchPositions(doc, name, placeholder);
    CountIsNumberOfMatches(doc, name, placeholder);
    assert (set i | 0 <= i < |doc| && IsMatch(doc[i], name, placeholder)) == (set j | 0 <= j < |ps| :: ps[j]);
    IncreasingCardinality(ps);
  }

  /** A strictly increasing sequence has as many distinct elements as it is long. */
  lemma {:induction false} IncreasingCardinality(ps: seq<nat>)
    requires forall j, k :: 0 <= j < k < |ps| ==> ps[j] < ps[k]
    ensures |set j | 0 <= j < |ps| :: ps[j]| == |ps|
  {
    if |ps| > 0 {
      var prefix := ps[..|ps| - 1];
      IncreasingCardinality(prefix);
      assert (set j | 0 <= j < |ps| :: ps[j]) == (set j | 0 <= j < |prefix| :: prefix[j]) + {ps[|ps| - 1]};
      assert ps[|ps| - 1] !in (set j | 0 <= j < |prefix| :: prefix[j]);
    }
  }

  /**
    Rewriting a matching element to `id` removes it from the matches, unless
    `id` is the placeholder itself; elements with other names are unaffected.
  */
  lemma {:induction false} RewriteMatchCount(doc: seq<GraphicElement>, i: nat, id: string, name: string, placeholder: string, other: string)
    requires i < |doc| && IsMatch(doc[i], name, placeholder)
    ensures ImageMissingCount(RewriteAt(doc, i, id), name, placeholder)
      == ImageMissingCount(doc, name, placeholder) - (if id == placeholder then 0 else 1)
    ensures other != name ==>
      ImageMissingCount(RewriteAt(doc, i, id), other, placeholder) == ImageMissingCount(doc, other, placeholder)
  {
    var d := RewriteAt(doc, i, id);
    if i == 0 {
      assert d[1..] == doc[1..];
    } else {
      assert d[0] == doc[0];
      assert d[1..] == RewriteAt(doc[1..], i - 1, id);
      RewriteMatchCount(doc[1..], i - 1, id, name, placeholder, other);
    }
  }

  /** The same, for every other name at once. */
  lemma RewriteKeepsOtherCounts(doc: seq<GraphicElement>, i: nat, id: string, name: string, placeholder: string)
    requires i < |doc| && IsMatch(doc[i], name, placeholder)
    ensures forall other :: other != name ==>
      ImageMissingCount(RewriteAt(doc, i, id), other, placeholder) == ImageMissingCount(doc, other, placeholder)
  {
    forall other | other != name
      ensures ImageMissingCount(RewriteAt(doc, i, id), other, placeholder) == ImageMissingCount(doc, other, placeholder)
    {
      RewriteMatchCount(doc, i, id, name, placeholder, other);
    }
  }

  /**
    Reference definition of a whole repair of one candidate, without repeated
    queries: the `j`-th matching element in document order gets `ids[j]`;
    matches beyond `|ids|` and all other elements stay as they are.
  */
  function RelabelMatches(doc: seq<GraphicElement>, name: string, placeholder: string, ids: seq<string>): (d: seq<GraphicElement>)
    ensures |d| == |doc|
  {
    if |doc| == 0 then []
    else if IsMatch(doc[0], name, placeholder) && 0 < |ids| then
      [SetEmbed(doc[0], ids[0])] + RelabelMatches(doc[1..], name, placeholder, ids[1..])
    else
      [doc[0]] + RelabelMatches(doc[1..], name, placeholder, ids)
  }

  lemma {:induction false} RelabelNothing(doc: seq<GraphicElement>, name: string, placeholder: string)
    ensures RelabelMatches(doc, name, placeholder, []) == doc
  {
    if |doc| > 0 {
      RelabelNothing(doc[1..], name, placeholder);
      assert doc == [doc[0]] + doc[1..];
    }
  }

  /** Rewriting past a leading element leaves that element in place. */
  lemma RewriteAtCons(x: GraphicElement, rest: seq<GraphicElement>, k: nat, id: string)
    requires k < |rest| && rest[k].blip.Some?
    ensures RewriteAt([x] + rest, k + 1, id) == [x] + RewriteAt(rest, k, id)
  {
    assert forall j :: 0 <= j < |rest| + 1 ==> RewriteAt([x] + rest, k + 1, id)[j] == ([x] + RewriteAt(rest, k, id))[j];
  }

  /** A leading element that does not match only shifts the first match by one. */
  lemma FirstMatchCons(x: GraphicElement, rest: seq<GraphicElement>, name: string, placeholder: string)
    requires !IsMatch(x, name, placeholder)
    ensures FirstMatch([x] + rest, name, placeholder)
      == if FirstMatch(rest, name, placeholder).Some? then Some(FirstMatch(rest, name, placeholder).value + 1) else None
  {
    assert ([x] + rest)[1..] == rest;
  }

  /**
    Behind a leading element that does not match, the query finds the same
    element as in the rest, and rewriting it leaves the leading element alone.
  */
  lemma RewriteFirstMatchCons(x: GraphicElement, rest: seq<GraphicElement>, e: seq<GraphicElement>, name: string, placeholder: string, id: string)
    requires !IsMatch(x, name, placeholder)
    requires FirstMatch(rest, name, placeholder).Some?
    requires RewriteAt(rest, FirstMatch(rest, name, placeholder).value, id) == e
    ensures FirstMatch([x] + rest, name, placeholder).Some?
    ensures RewriteAt([x] + rest, FirstMatch([x] + rest, name, placeholder).value, id) == [x] + e
  {
    FirstMatchCons(x, rest, name, placeholder);
    RewriteAtCons(x, rest, FirstMatch(rest, name, placeholder).value, id);
  }

  /**
    The self-consuming query: after the first `|ids|` matches have been
    relabelled with ids other than the placeholder, the first remaining match
    is the next one in document order, so rewriting it extends the relabelling
    by one id.
  */
  lemma {:induction false} RelabelStep(doc: seq<GraphicElement>, name: string, placeholder: string, ids: seq<string>, id: string)
    requires |ids| < ImageMissingCount(doc, name, placeholder)
    requires forall j :: 0 <= j < |ids| ==> ids[j] != placeholder
    ensures var d := RelabelMatches(doc, name, placeholder, ids);
      && FirstMatch(d, name, placeholder).Some?
      && RewriteAt(d, FirstMatch(d, name, placeholder).value, id) == RelabelMatches(doc, name, placeholder, ids + [id])
  {
    var tail := doc[1..];
    var d := RelabelMatches(doc, name, placeholder, ids);
    if IsMatch(doc[0], name, placeholder) && 0 < |ids| {
      var x := SetEmbed(doc[0], ids[0]);
      var dt := RelabelMatches(tail, name, placeholder, ids[1..]);
      var e := RelabelMatches(tail, name, placeholder, ids[1..] + [id]);
      assert d == [x] + dt by {
        RelabelUnfoldMatch(doc, name, placeholder, ids);
      }
      assert RelabelMatches(doc, name, placeholder, ids + [id]) == [x] + e by {
        RelabelUnfoldMatch(doc, name, placeholder, ids + [id]);
        assert (ids + [id])[1..] == ids[1..] + [id];
      }
      RelabelStep(tail, name, placeholder, ids[1..], id);
      RewriteFirstMatchCons(x, dt, e, name, placeholder, id);
    } else if IsMatch(doc[0], name, placeholder) {
      assert d == doc by {
        RelabelNothing(doc, name, placeholder);
      }
      assert RelabelMatches(doc, name, placeholder, ids + [id]) == [SetEmbed(doc[0], id)] + tail by {
        RelabelUnfoldMatch(doc, name, placeholder, [id]);
        RelabelNothing(tail, name, placeholder);
        assert ids + [id] == [id] && [id][1..] == [];
      }
      RewriteAtHead(doc, id);
    } else {
      var dt := RelabelMatches(tail, name, placeholder, ids);
      var e := RelabelMatches(tail, name, placeholder, ids + [id]);
      assert d == [doc[0]] + dt by {
        RelabelUnfoldSkip(doc, name, placeholder, ids);
      }
      assert RelabelMatches(doc, name, placeholder, ids + [id]) == [doc[0]] + e by {
        RelabelUnfoldSkip(doc, name, placeholder, ids + [id]);
      }
      RelabelStep(tail, name, placeholder, ids, id);
      RewriteFirstMatchCons(doc[0], dt, e, name, placeholder, id);
    }
  }

  /** Rewriting the leading element replaces just that element. */
  lemma RewriteAtHead(doc: seq<GraphicElement>, id: string)
    requires 0 < |doc| && doc[0].blip.Some?
    ensures RewriteAt(doc, 0, id) == [SetEmbed(doc[0], id)] + doc[1..]
  {
    assert forall j :: 0 <= j < |doc| ==> RewriteAt(doc, 0, id)[j] == ([SetEmbed(doc[0], id)] + doc[1..])[j];
  }

  /** One step of the relabelling at a leading match. */
  lemma RelabelUnfoldMatch(doc: seq<GraphicElement>, name: string, placeholder: string, ids: seq<string>)
    requires 0 < |doc| && IsMatch(doc[0], name, placeholder) && 0 < |ids|
    ensures RelabelMatches(doc, name, placeholder, ids)
      == [SetEmbed(doc[0], ids[0])] + RelabelMatches(doc[1..], name, placeholder, ids[1..])
  {
  }

  /** One step of the relabelling at a leading element that does not match. */
  lemma RelabelUnfoldSkip(doc: seq<GraphicElement>, name: string, placeholder: string, ids: seq<string>)
    requires 0 < |doc| && !IsMatch(doc[0], name, placeholder)
    ensures RelabelMatches(doc, name, placeholder, ids) == [doc[0]] + RelabelMatches(doc[1..], name, placeholder, ids)
  {
  }

  /**
    Relabelling `n` matches with ids other than the placeholder leaves exactly
    `n` fewer matches, and does not touch pictures of any other name.
  */
  lemma {:induction false} RelabelCount(doc: seq<GraphicElement>, name: string, placeholder: string, ids: seq<string>, other: string)
    requires |ids| <= ImageMissingCount(doc, name, placeholder)
    requires forall j :: 0 <= j < |ids| ==> ids[j] != placeholder
    ensures ImageMissingCount(RelabelMatches(doc, name, placeholder, ids), name, placeholder)
      == ImageMissingCount(doc, name, placeholder) - |ids|
    ensures other != name ==>
      ImageMissingCount(RelabelMatches(doc, name, placeholder, ids), other, placeholder) == ImageMissingCount(doc, other, placeholder)
  {
    if |doc| > 0 {
      var d := RelabelMatches(doc, name, placeholder, ids);
      if IsMatch(doc[0], name, placeholder) && 0 < |ids| {
        RelabelCount(doc[1..], name, placeholder, ids[1..], other);
        assert d[1..] == RelabelMatches(doc[1..], name, placeholder, ids[1..]);
      } else {
        RelabelCount(doc[1..], name, placeholder, ids, other);
        assert d[1..] == RelabelMatches(doc[1..], name, placeholder, ids);
      }
    }
  }

  /**
    The relabelling touches only matching elements, and each of those it
    touches now points at one of the given ids.
  */
  lemma {:induction false} RelabelTouchesOnlyMatches(doc: seq<GraphicElement>, name: string, placeholder: string, ids: seq<string>, i: nat)
    requires i < |doc|
    ensures var d := RelabelMatches(doc, name, placeholder, ids);
      || d[i] == doc[i]
      || (IsMatch(doc[i], name, placeholder) && d[i].picture == doc[i].picture
          && d[i].blip.Some? && d[i].blip.value.embed.Some? && d[i].blip.value.embed.value in ids)
  {
    var d := RelabelMatches(doc, name, placeholder, ids);
    if i > 0 {
      if IsMatch(doc[0], name, placeholder) && 0 < |ids| {
        RelabelTouchesOnlyMatches(doc[1..], name, placeholder, ids[1..], i - 1);
        assert d[i] == RelabelMatches(doc[1..], name, placeholder, ids[1..])[i - 1];
        assert forall x :: x in ids[1..] ==> x in ids;
      } else {
        RelabelTouchesOnlyMatches(doc[1..], name, placeholder, ids, i - 1);
        assert d[i] == RelabelMatches(doc[1..], name, placeholder, ids)[i - 1];
      }
    }
  }
}

=== FILE: identifiers.dfy ===
/**
  The two numbered names the tool reads and allocates: relationship ids `rId<N>`
  and media file names `image<N>.<ext>`, with the records `RId` and `ImageFile`
  that pair each name with its number, and the scans that find the largest one.
*/
module Identifiers {
  import opened Wrappers
  import opened Errors

  // ---------------------------------------------------------------------------
  // Decimal digits (what `\d` and `Integer.parseInt` accept; no overflow)
  // ---------------------------------------------------------------------------

  predicate IsDigit(c: char) {
    '0' <= c <= '9'
  }

  predicate AllDigits(s: string) {
    forall i :: 0 <= i < |s| ==> IsDigit(s[i])
  }

  function DigitChar(d: nat): char
    requires d < 10
  {
    ('0' as int + d) as char
  }

  function DigitValue(c: char): nat
    requires IsDigit(c)
  {
    c as int - '0' as int
  }

  /** The number a run of decimal digits denotes, as `Integer.parseInt` reads it. */
  function DigitsValue(s: string): nat
    requires AllDigits(s)
  {
    if |s| == 0 then 0 else DigitsValue(s[..|s| - 1]) * 10 + DigitValue(s[|s| - 1])
  }

  /** `String.format("%d", n)` for a non-negative `n`. */
  function FormatNat(n: nat): (s: string)
    ensures 0 < |s| && AllDigits(s)
  {
    if n < 10 then [DigitChar(n)] else FormatNat(n / 10) + [DigitChar(n % 10)]
  }

  lemma {:induction false} FormatNatRoundTrip(n: nat)
    ensures DigitsValue(FormatNat(n)) == n
  {
    var s := FormatNat(n);
    if n < 10 {
      assert s[..|s| - 1] == [];
    } else {
      assert s[..|s| - 1] == FormatNat(n / 10);
      FormatNatRoundTrip(n / 10);
    }
  }

  /** Characters Java's regular expressions treat as line terminators (besides `\r\n`). */
  predicate IsLineTerminator(c: char) {
    c == '\n' || c == '\r' || c == '\U{85}' || c == '\U{2028}' || c == '\U{2029}'
  }

  /**
    The part of `s` a group in front of `$` has to cover: outside multi-line mode,
    Java's `$` matches at the end of the input and also just before a single
    final line terminator, `\r\n` counting as one.
  */
  function BeforeFinalTerminator(s: string): string {
    if 2 <= |s| && s[|s| - 2..] == "\r\n" then s[..|s| - 2]
    else if 1 <= |s| && IsLineTerminator(s[|s| - 1]) then s[..|s| - 1]
    else s
  }

  /** The longest prefix of `s` made of digits: what the greedy `(\d+)` takes. */
  function LeadingDigits(s: string): (d: string)
    ensures |d| <= |s| && d == s[..|d|] && AllDigits(d)
    ensures |d| == |s| || !IsDigit(s[|d|])
  {
    if 0 < |s| && IsDigit(s[0]) then [s[0]] + LeadingDigits(s[1..]) else []
  }

  lemma {:induction false} LeadingDigitsStopAtNonDigit(d: string, t: string)
    requires AllDigits(d)
    requires |t| == 0 || !IsDigit(t[0])
    ensures LeadingDigits(d + t) == d
  {
    if |d| == 0 {
      assert d + t == t;
    } else {
      assert (d + t)[1..] == d[1..] + t;
      LeadingDigitsStopAtNonDigit(d[1..], t);
    }
  }

  /** The suffix from `i` is the slice up to `n` followed by the suffix from `n`. */
  lemma SplitAt(s: string, i: nat, n: nat)
    requires i <= n <= |s|
    ensures s[i..] == s[i..n] + s[n..]
  {
  }

  // ---------------------------------------------------------------------------
  // Relationship ids
  // ---------------------------------------------------------------------------

  const RIdPrefix := "rId"

  /**
    `parseRIdValue`: the number matched by `^(rId)(\d+)$`. Where the pattern does
    not match, the source reads a group of a failed match and throws; that is a
    `ParseError` here.
  */
  function ParseRIdValue(s: string): (r: Result<nat, Error>)
    ensures r.Failure? ==> r.error == ParseError(s)
  {
    if |s| < 3 || s[..3] != RIdPrefix then Failure(ParseError(s))
    else
      var digits := BeforeFinalTerminator(s[3..]);
      if 0 < |digits| && AllDigits(digits) then Success(DigitsValue(digits))
      else Failure(ParseError(s))
  }

  /** The text of `new RId(n)`: `String.format("rId%d", n)`, the prefix followed by the decimal digits. */
  function FormatRId(n: nat): string {
    RIdPrefix + FormatNat(n)
  }

  /** The text is the prefix followed by a non-empty run of digits. */
  lemma FormatRIdShape(n: nat)
    ensures var s := FormatRId(n); 3 < |s| && s[..3] == RIdPrefix && AllDigits(s[3..])
  {
  }

  /** What `$` may leave after the digits: nothing, or one final line terminator, `\r\n` counting as one. */
  predicate IsFinalTerminator(t: string) {
    t == "" || t == "\r\n" || (|t| == 1 && IsLineTerminator(t[0]))
  }

  /** Digits followed by what `$` may leave lose exactly that tail. */
  lemma {:induction false} BeforeFinalTerminatorOf(d: string, t: string)
    requires 0 < |d| && AllDigits(d) && IsFinalTerminator(t)
    ensures BeforeFinalTerminator(d + t) == d
  {
    var u := d + t;
    assert u[|d| - 1] == d[|d| - 1];
    if t == "\r\n" {
      assert u[|u| - 2..] == t;
      assert u[..|u| - 2] == d;
    } else if |t| == 1 {
      assert u[|u| - 2] == d[|d| - 1];
      assert u[..|u| - 1] == d;
    } else {
      assert u == d;
    }
  }

  /**
    `^(rId)(\d+)$` exactly: a text parses precisely when it is `rId`, a
    non-empty run of digits up to some position `n`, and then at most one final
    line terminator; the value is the number those digits denote.
  */
  lemma {:induction false} ParseRIdValueMatches(s: string)
    ensures ParseRIdValue(s).Success? <==>
      exists n :: 3 < n <= |s| && s[..3] == RIdPrefix && AllDigits(s[3..n]) && IsFinalTerminator(s[n..])
    ensures forall n :: 3 < n <= |s| && s[..3] == RIdPrefix && AllDigits(s[3..n]) && IsFinalTerminator(s[n..]) ==>
      ParseRIdValue(s) == Success(DigitsValue(s[3..n]))
  {
    forall n | 3 < n <= |s| && s[..3] == RIdPrefix && AllDigits(s[3..n]) && IsFinalTerminator(s[n..])
      ensures ParseRIdValue(s) == Success(DigitsValue(s[3..n]))
    {
      assert s[3..] == s[3..n] + s[n..];
      BeforeFinalTerminatorOf(s[3..n], s[n..]);
    }
    if ParseRIdValue(s).Success? {
      var d := BeforeFinalTerminator(s[3..]);
      var n := 3 + |d|;
      assert s[3..n] == d;
      assert IsFinalTerminator(s[n..]);
    }
  }

  /** The converse direction spelled out: `rId`, digits and an allowed tail read as those digits. */
  lemma {:induction false} ParseRIdValueOf(d: string, t: string)
    requires 0 < |d| && AllDigits(d) && IsFinalTerminator(t)
    ensures ParseRIdValue(RIdPrefix + d + t) == Success(DigitsValue(d))
  {
    var s := RIdPrefix + d + t;
    assert s[..3] == RIdPrefix && s[3..3 + |d|] == d && s[3 + |d|..] == t;
    ParseRIdValueMatches(s);
  }

  lemma RIdRoundTrip(n: nat)
    ensures ParseRIdValue(FormatRId(n)) == Success(n)
  {
    var s := FormatRId(n);
    assert s[..3] == RIdPrefix;
    assert s[3..] == FormatNat(n);
    FormatNatRoundTrip(n);
  }

  lemma FormatRIdInjective(a: nat, b: nat)
    ensures FormatRId(a) == FormatRId(b) ==> a == b
  {
    RIdRoundTrip(a);
    RIdRoundTrip(b);
  }

  /** A relationship id as the tool holds it: the id text and its number. */
  datatype RId = RId(rId: string, idValue: nat)

  /** `new RId(int)`: formats the number; the text parses back to it. */
  function RIdOf(n: nat): (r: RId)
    ensures r.idValue == n
  {
    RId(FormatRId(n), n)
  }

  /** `new RId(String)`: keeps the text as given and fails where `parseRIdValue` does. */
  function ParseRId(s: string): (r: Result<RId, Error>)
    ensures r.Success? <==> ParseRIdValue(s).Success?
    ensures r.Success? ==> r.value.rId == s && ParseRIdValue(s) == Success(r.value.idValue)
  {
    match ParseRIdValue(s)
    case Success(n) => Success(RId(s, n))
    case Failure(e) => Failure(e)
  }

  // ---------------------------------------------------------------------------
  // Media file names
  // ---------------------------------------------------------------------------

  const ImagePrefix := "image"
  const NewImageExtension := ".jpeg"

  /**
    `parseImageFilename`: the number matched by `^image(\d+)\.` (searched with
    `find`, so anything may follow the dot). A name the pattern does not match is
    a `ParseError`.
  */
  function ParseImageFilename(s: string): (r: Result<nat, Error>)
    ensures r.Success? ==> 5 < |s| && s[..5] == ImagePrefix && IsDigit(s[5])
    ensures r.Failure? ==> r.error == ParseError(s)
  {
    if |s| < 5 || s[..5] != ImagePrefix then Failure(ParseError(s))
    else
      var digits := LeadingDigits(s[5..]);
      if 0 < |digits| && 5 + |digits| < |s| && s[5 + |digits|] == '.' then Success(DigitsValue(digits))
      else Failure(ParseError(s))
  }

  /** The name of `new ImageFile(n)`: `String.format("image%d.jpeg", n)`, the prefix, the decimal digits and the extension. */
  function FormatImageFile(n: nat): string {
    ImagePrefix + FormatNat(n) + NewImageExtension
  }

  /** The name is the prefix, a non-empty run of digits, and the extension. */
  lemma FormatImageFileShape(n: nat)
    ensures var s := FormatImageFile(n);
      10 < |s| && s[..5] == ImagePrefix && AllDigits(s[5..|s| - 5]) && s[|s| - 5..] == NewImageExtension
  {
  }

  /**
    `^image(\d+)\.` searched with `find` exactly: a name parses precisely when
    it is `image`, a non-empty run of digits up to some position `n`, and a dot
    there; the value is the number those digits denote.
  */
  lemma {:induction false} ParseImageFilenameMatches(s: string)
    ensures ParseImageFilename(s).Success? <==>
      exists n :: 5 < n < |s| && s[..5] == ImagePrefix && AllDigits(s[5..n]) && s[n] == '.'
    ensures forall n :: 5 < n < |s| && s[..5] == ImagePrefix && AllDigits(s[5..n]) && s[n] == '.' ==>
      ParseImageFilename(s) == Success(DigitsValue(s[5..n]))
  {
    forall n | 5 < n < |s| && s[..5] == ImagePrefix && AllDigits(s[5..n]) && s[n] == '.'
      ensures ParseImageFilename(s) == Success(DigitsValue(s[5..n]))
    {
      SplitAt(s, 5, n);
      LeadingDigitsStopAtNonDigit(s[5..n], s[n..]);
    }
    if ParseImageFilename(s).Success? {
      var d := LeadingDigits(s[5..]);
      var n := 5 + |d|;
      assert s[5..n] == d;
    }
  }

  /** The converse direction spelled out: `image`, digits, a dot and anything read as those digits. */
  lemma {:induction false} ParseImageFilenameOf(d: string, rest: string)
    requires 0 < |d| && AllDigits(d)
    ensures ParseImageFilename(ImagePrefix + d + "." + rest) == Success(DigitsValue(d))
  {
    var s := ImagePrefix + d + "." + rest;
    assert s[..5] == ImagePrefix && s[5..5 + |d|] == d && s[5 + |d|] == '.';
    ParseImageFilenameMatches(s);
  }

  /** A relationship id as it occurs reads as its number. */
  lemma RIdExample()
    ensures ParseRIdValue("rId12") == Success(12)
  {
    ParseRIdValueOf("12", "");
    assert RIdPrefix + "12" + "" == "rId12";
    assert "12"[..1] == "1" && DigitsValue("12") == 12;
  }

  /** A media name as it occurs reads as its number. */
  lemma ImageFilenameExample()
    ensures ParseImageFilename("image3.png") == Success(3)
  {
    ParseImageFilenameOf("3", "png");
    assert ImagePrefix + "3" + "." + "png" == "image3.png";
    assert DigitsValue("3") == 3;
  }

  /** Near misses the pattern rejects: no dot after the digits, and no digits at all. */
  lemma ImageFilenameNearMisses()
    ensures ParseImageFilename("image5x").Failure?
    ensures ParseImageFilename("image.png").Failure?
  {
    var a, b := "image5x", "image.png";
    assert a[5..] == "5" + "x" && a[6] == 'x';
    LeadingDigitsStopAtNonDigit("5", "x");
    assert b[5..] == "" + ".png";
    LeadingDigitsStopAtNonDigit("", ".png");
  }

  lemma ImageFileRoundTrip(n: nat)
    ensures ParseImageFilename(FormatImageFile(n)) == Success(n)
  {
    var s := FormatImageFile(n);
    var d := FormatNat(n);
    assert s[..5] == ImagePrefix;
    assert s[5..] == d + NewImageExtension;
    LeadingDigitsStopAtNonDigit(d, NewImageExtension);
    assert s[5 + |d|] == '.';
    FormatNatRoundTrip(n);
  }

  lemma FormatImageFileInjective(a: nat, b: nat)
    ensures FormatImageFile(a) == FormatImageFile(b) ==> a == b
  {
    ImageFileRoundTrip(a);
    ImageFileRoundTrip(b);
  }

  /** A media file as the tool holds it: the file name and its number. */
  datatype ImageFile = ImageFile(filename: string, idValue: nat)

  /** `new ImageFile(int)`: formats the number; the name parses back to it. */
  function ImageFileOf(n: nat): (f: ImageFile)
    ensures f.idValue == n
  {
    ImageFile(FormatImageFile(n), n)
  }

  /** `new ImageFile(String)`: keeps the name as given and fails where `parseImageFilename` does. */
  function ParseImageFile(s: string): (r: Result<ImageFile, Error>)
    ensures r.Success? <==> ParseImageFilename(s).Success?
    ensures r.Success? ==> r.value.filename == s && ParseImageFilename(s) == Success(r.value.idValue)
  {
    match ParseImageFilename(s)
    case Success(n) => Success(ImageFile(s, n))
    case Failure(e) => Failure(e)
  }

  // ---------------------------------------------------------------------------
  // Largest existing number
  // ---------------------------------------------------------------------------

  /**
    `getMaxRId` over the `Id` attributes of the relationship table, in document
    order. Each id is parsed as it is reached, so the first unparsable one aborts
    the scan. A candidate is replaced only by a strictly larger one, so the first
    of several equal maxima is kept; an empty table gives no maximum (null).
  */
  method GetMaxRId(ids: seq<string>) returns (r: Result<Option<RId>, Error>)
    ensures r.Failure? <==> exists i :: 0 <= i < |ids| && ParseRIdValue(ids[i]).Failure?
    ensures r.Success? ==> (r.value.None? <==> |ids| == 0)
    ensures r.Success? && r.value.Some? ==>
      exists k :: 0 <= k < |ids| && ids[k] == r.value.value.rId
        && ParseRIdValue(ids[k]) == Success(r.value.value.idValue)
        && (forall j :: 0 <= j < k ==> ParseRIdValue(ids[j]).Success? && ParseRIdValue(ids[j]).value < r.value.value.idValue)
    ensures r.Success? && r.value.Some? ==>
      forall i :: 0 <= i < |ids| ==> ParseRIdValue(ids[i]).Success? && ParseRIdValue(ids[i]).value <= r.value.value.idValue
  {
    var best: Option<RId> := None;
    ghost var at: nat := 0;
    ghost var values: seq<nat> := [];
    for i := 0 to |ids|
      invariant |values| == i
      invariant forall j :: 0 <= j < i ==> ParseRIdValue(ids[j]) == Success(values[j])
      invariant best.None? <==> i == 0
      invariant best.Some? ==> at < i && ids[at] == best.value.rId && values[at] == best.value.idValue
      invariant best.Some? ==> forall j :: 0 <= j < at ==> values[j] < best.value.idValue
      invariant best.Some? ==> forall j :: 0 <= j < i ==> values[j] <= best.value.idValue
    {
      var t := ParseRId(ids[i]);
      if t.Failure? {
        return Failure(t.error);
      }
      values := values + [t.value.idValue];
      if best.None? || t.value.idValue > best.value.idValue {
        best := Some(t.value);
        at := i;
      }
    }
    r := Success(best);
  }

  /**
    `getMaxImageFile` over the names listed in the media folder, in listing
    order. All names are parsed first, so any unparsable name is a failure;
    then the first of several equal maxima is kept, and an empty folder gives no
    maximum (null).
  */
  method GetMaxImageFile(names: seq<string>) returns (r: Result<Option<ImageFile>, Error>)
    ensures r.Failure? <==> exists i :: 0 <= i < |names| && ParseImageFilename(names[i]).Failure?
    ensures r.Success? ==> (r.value.None? <==> |names| == 0)
    ensures r.Success? && r.value.Some? ==>
      exists k :: 0 <= k < |names| && names[k] == r.value.value.filename
        && ParseImageFilename(names[k]) == Success(r.value.value.idValue)
        && (forall j :: 0 <= j < k ==> ParseImageFilename(names[j]).Success? && ParseImageFilename(names[j]).value < r.value.value.idValue)
    ensures r.Success? && r.value.Some? ==>
      forall i :: 0 <= i < |names| ==> ParseImageFilename(names[i]).Success? && ParseImageFilename(names[i]).value <= r.value.value.idValue
  {
    var files: seq<ImageFile> := [];
    for i := 0 to |names|
      invariant |files| == i
      invariant forall j :: 0 <= j < i ==> ParseImageFilename(names[j]) == Success(files[j].idValue) && files[j].filename == names[j]
    {
      var f := ParseImageFile(names[i]);
      if f.Failure? {
        return Failure(f.error);
      }
      files := files + [f.value];
    }
    var best: Option<ImageFile> := None;
    ghost var at: nat := 0;
    for i := 0 to |files|
      invariant best.None? <==> i == 0
      invariant best.Some? ==> at < i && best.value == files[at]
      invariant best.Some? ==> forall j :: 0 <= j < at ==> files[j].idValue < best.value.idValue
      invariant best.Some? ==> forall j :: 0 <= j < i ==> files[j].idValue <= best.value.idValue
    {
      if best.None? || files[i].idValue > best.value.idValue {
        best := Some(files[i]);
        at := i;
      }
    }
    r := Success(best);
  }
}

=== FILE: namespaces.dfy ===
/**
  The namespace context every XPath query of the tool is compiled against: four
  fixed prefix/URI bindings, looked up in both directions.
*/
module Namespaces {
  import opened Wrappers
  import opened Errors

  const DrawingMl := "http://schemas.openxmlformats.org/drawingml/2006/main"
  const Picture := "http://schemas.openxmlformats.org/drawingml/2006/picture"
  const PackageRelationships := "http://schemas.openxmlformats.org/package/2006/relationships"
  const DocumentRelationships := "http://schemas.openxmlformats.org/officeDocument/2006/relationships"

  /** The prefixes the context binds. */
  predicate IsKnownPrefix(prefix: string) {
    prefix == "a" || prefix == "pic" || prefix == "pr" || prefix == "r"
  }

  /** The URIs the context binds. */
  predicate IsKnownUri(uri: string) {
    uri == DrawingMl || uri == Picture || uri == PackageRelationships || uri == DocumentRelationships
  }

  /**
    `getNamespaceURI`: the URI bound to a prefix; any other prefix is rejected
    with an `IllegalArgumentException`.
  */
  function NamespaceUri(prefix: string): (r: Result<string, Error>)
    ensures r.Success? <==> IsKnownPrefix(prefix)
    ensures r.Success? ==> IsKnownUri(r.value)
    ensures r.Failure? ==> r.error == UnknownNamespace(prefix)
  {
    match prefix
    case "a" => Success(DrawingMl)
    case "pic" => Success(Picture)
    case "pr" => Success(PackageRelationships)
    case "r" => Success(DocumentRelationships)
    case _ => Failure(UnknownNamespace(prefix))
  }

  /** `getPrefix`: the prefix bound to a URI; any other URI is rejected. */
  function PrefixOf(uri: string): (r: Result<string, Error>)
    ensures r.Success? <==> IsKnownUri(uri)
    ensures r.Success? ==> IsKnownPrefix(r.value)
    ensures r.Failure? ==> r.error == UnknownNamespace(uri)
  {
    if uri == DrawingMl then Success("a")
    else if uri == Picture then Success("pic")
    else if uri == PackageRelationships then Success("pr")
    else if uri == DocumentRelationships then Success("r")
    else Failure(UnknownNamespace(uri))
  }

  /** The two lookups are inverse bijections between the four prefixes and the four URIs. */
  lemma NamespaceRoundTrip(prefix: string, uri: string)
    ensures NamespaceUri(prefix) == Success(uri) <==> PrefixOf(uri) == Success(prefix)
  {
  }

  /**
    `getPrefixes` as written: a one-element list per URI, except that for the
    package-relationships URI it lists `pi`, a prefix the context does not bind.
  */
  function PrefixesAsWritten(uri: string): (r: Result<seq<string>, Error>)
    ensures r.Success? <==> IsKnownUri(uri)
    ensures r.Success? ==> |r.value| == 1
  {
    if uri == DrawingMl then Success(["a"])
    else if uri == Picture then Success(["pic"])
    else if uri == PackageRelationships then Success(["pi"])
    else if uri == DocumentRelationships then Success(["r"])
    else Failure(UnknownNamespace(uri))
  }

  /** For the package-relationships URI, `getPrefixes` and `getPrefix` disagree, and the listed prefix does not resolve back. */
  lemma PrefixesDisagreeForPackageRelationships()
    ensures PrefixesAsWritten(PackageRelationships) == Success(["pi"])
    ensures PrefixOf(PackageRelationships) == Success("pr")
    ensures NamespaceUri("pi").Failure?
  {
  }

  /** `getPrefixes` as evidently intended: the single prefix `getPrefix` returns. */
  function Prefixes(uri: string): (r: Result<seq<string>, Error>)
    ensures r.Success? <==> IsKnownUri(uri)
    ensures r.Success? ==> |r.value| == 1 && NamespaceUri(r.value[0]) == Success(uri)
    ensures r.Failure? ==> r.error == UnknownNamespace(uri)
  {
    match PrefixOf(uri)
    case Success(prefix) => Success([prefix])
    case Failure(e) => Failure(e)
  }

  /** The as-written list agrees with the corrected one on every URI but the package-relationships one. */
  lemma PrefixesAsWrittenAgreeElsewhere(uri: string)
    requires uri != PackageRelationships
    ensures PrefixesAsWritten(uri) == Prefixes(uri)
  {
  }
}

=== FILE: relationships.dfy ===
/**
  The relationship table (`word/_rels/document.xml.rels`) as a sequence of
  `Relationship` entries in document order, and the id -> target index the tool
  builds from it.
*/
module RelationshipIndex {

  datatype Relationship = Relationship(id: string, target: string)

  /** ASCII upper-casing of one character. */
  function UpperAscii(c: char): char {
    if 'a' <= c <= 'z' then (c as int - 32) as char else c
  }

  /** `String.toUpperCase`, restricted to ASCII letters. */
  function ToUpper(s: string): (u: string)
    ensures |u| == |s|
  {
    seq(|s|, i requires 0 <= i < |s| => UpperAscii(s[i]))
  }

  /** A target that reads `NULL` in any letter case marks a broken entry. */
  predicate IsNullTarget(target: string) {
    ToUpper(target) == "NULL"
  }

  /** Entry `i` is the last entry of the table that defines `id` with a usable target. */
  ghost predicate IsLastDefinition(rels: seq<Relationship>, id: string, i: int) {
    && 0 <= i < |rels|
    && rels[i].id == id && !IsNullTarget(rels[i].target)
    && forall j :: i < j < |rels| && rels[j].id == id ==> IsNullTarget(rels[j].target)
  }

  /**
    `parseRelations`: entries are read in order into a map; an entry whose
    target is `NULL` (any case) is skipped, and a later entry with the same id
    overwrites an earlier one.
  */
  function ParseRelations(rels: seq<Relationship>): (m: map<string, string>)
    ensures forall id :: id in m ==> id in IdsOf(rels)
  {
    if |rels| == 0 then map[]
    else
      var last := rels[|rels| - 1];
      var m := ParseRelations(rels[..|rels| - 1]);
      assert IdsOf(rels) == IdsOf(rels[..|rels| - 1]) + [last.id];
      if IsNullTarget(last.target) then m else m[last.id := last.target]
  }

  /** The index holds exactly the ids the table defines with a usable target. */
  lemma {:induction false} ParseRelationsKeys(rels: seq<Relationship>, id: string)
    ensures id in ParseRelations(rels) <==> exists i :: 0 <= i < |rels| && rels[i].id == id && !IsNullTarget(rels[i].target)
  {
    if |rels| > 0 {
      var prefix := rels[..|rels| - 1];
      ParseRelationsKeys(prefix, id);
      if id in ParseRelations(prefix) {
        var i :| 0 <= i < |prefix| && prefix[i].id == id && !IsNullTarget(prefix[i].target);
        assert rels[i] == prefix[i];
      }
      if exists i :: 0 <= i < |rels| && rels[i].id == id && !IsNullTarget(rels[i].target) {
        var i :| 0 <= i < |rels| && rels[i].id == id && !IsNullTarget(rels[i].target);
        if i < |prefix| {
          assert prefix[i] == rels[i];
        }
      }
    }
  }

  /** Each id in the index maps to the target of the last entry defining it with a usable target. */
  lemma {:induction false} ParseRelationsLastWins(rels: seq<Relationship>, id: string)
    requires id in ParseRelations(rels)
    ensures exists i :: IsLastDefinition(rels, id, i) && ParseRelations(rels)[id] == rels[i].target
  {
    var prefix := rels[..|rels| - 1];
    var last := rels[|rels| - 1];
    if !IsNullTarget(last.target) && last.id == id {
      assert IsLastDefinition(rels, id, |rels| - 1);
    } else {
      assert ParseRelations(rels) == (if IsNullTarget(last.target) then ParseRelations(prefix) else ParseRelations(prefix)[last.id := last.target]);
      assert id in ParseRelations(prefix) && ParseRelations(rels)[id] == ParseRelations(prefix)[id];
      ParseRelationsLastWins(prefix, id);
      var i :| IsLastDefinition(prefix, id, i) && ParseRelations(prefix)[id] == prefix[i].target;
      forall j | i < j < |rels| && rels[j].id == id
        ensures IsNullTarget(rels[j].target)
      {
        if j < |prefix| {
          assert rels[j] == prefix[j];
        }
      }
      assert rels[i] == prefix[i];
    }
  }

  /** A `NULL` target never reaches the index, whatever else the table holds. */
  lemma NullTargetsExcluded(rels: seq<Relationship>)
    ensures forall id :: id in ParseRelations(rels) ==> !IsNullTarget(ParseRelations(rels)[id])
  {
    var m := ParseRelations(rels);
    forall id | id in m
      ensures !IsNullTarget(m[id])
    {
      ParseRelationsLastWins(rels, id);
    }
  }

  /** The ids reported on standard error because their target is `NULL`, in table order. */
  function NullTargetIds(rels: seq<Relationship>): (ids: seq<string>)
    ensures |ids| <= |rels|
    ensures forall id :: id in ids <==> exists i :: 0 <= i < |rels| && rels[i].id == id && IsNullTarget(rels[i].target)
  {
    if |rels| == 0 then []
    else
      var rest := NullTargetIds(rels[1..]);
      assert forall i :: 0 <= i < |rels[1..]| ==> rels[1..][i] == rels[i + 1];
      if IsNullTarget(rels[0].target) then [rels[0].id] + rest else rest
  }

  /** The `Id` attributes of the table, in order (what `getMaxRId` scans). */
  function IdsOf(rels: seq<Relationship>): seq<string> {
    seq(|rels|, i requires 0 <= i < |rels| => rels[i].id)
  }
}

=== FILE: repair.dfy ===
/**
  The repair: for a candidate image in the staging folder, as many times as
  pictures of that name still point at the placeholder id, allocate a
  relationship id and a media name, copy the image in, append the
  relationship and point the first such picture at the new id; then move the
  candidate to the done folder.
*/
module Repair {
  import opened Wrappers
  import opened Errors
  import opened Identifiers
  import opened Allocation
  import opened RelationshipIndex
  import opened ReferenceGraph
  import opened BlipQuery

  /**
    The package as the repair sees it: the document's graphic elements, the
    relationship table, and the names in the media, staging and done folders.
  */
  datatype Package = Package(
    document: seq<GraphicElement>,
    relationships: seq<Relationship>,
    media: set<string>,
    staging: set<string>,
    done: set<string>)

  /** The two allocation cursors of a run. */
  datatype Cursors = Cursors(rIds: RIdWalker, images: ImageFileWalker)

  const MediaFolder := "media/"

  /** `createNewRelationship`: the entry appended for a freshly imported image. */
  function NewRelationship(rId: RId, image: ImageFile): (rel: Relationship)
    ensures rel.id == rId.rId
    ensures |MediaFolder| <= |rel.target| && rel.target[..|MediaFolder|] == MediaFolder
    ensures rel.target[|MediaFolder|..] == image.filename
  {
    Relationship(rId.rId, MediaFolder + image.filename)
  }

  /**
    Steps b to d of one iteration once both identifiers are allocated: copy
    the candidate into the media folder (`Files.copy`, which fails when the
    source is gone or the target name is taken), append the relationship, and
    point the first picture still matching at `rId` (`updateGraphics`, which
    dereferences null when nothing matches).
  */
  function Install(p: Package, rId: RId, image: ImageFile, file: string, placeholder: string): (r: Result<Package, Error>)
    ensures r.Failure? <==> file !in p.staging || image.filename in p.media || ImageMissingCount(p.document, file, placeholder) == 0
    ensures r.Failure? && r.error.NoMatchingBlip? ==> ImageMissingCount(p.document, file, placeholder) == 0
    ensures r.Failure? ==> r.error.NoSuchFile? || r.error.FileExists? || r.error.NoMatchingBlip?
    ensures r.Success? ==>
      && r.value.relationships == p.relationships + [NewRelationship(rId, image)]
      && r.value.media == p.media + {image.filename}
      && r.value.staging == p.staging && r.value.done == p.done
      && FirstMatch(p.document, file, placeholder).Some?
      && r.value.document == RewriteAt(p.document, FirstMatch(p.document, file, placeholder).value, rId.rId)
      && ImageMissingCount(r.value.document, file, placeholder)
         == ImageMissingCount(p.document, file, placeholder) - (if rId.rId == placeholder then 0 else 1)
      && forall other :: other != file ==>
           ImageMissingCount(r.value.document, other, placeholder) == ImageMissingCount(p.document, other, placeholder)
  {
    if file !in p.staging then Failure(NoSuchFile(file))
    else if image.filename in p.media then Failure(FileExists(MediaFolder + image.filename))
    else match FirstMatch(p.document, file, placeholder)
      case None => Failure(NoMatchingBlip(file))
      case Some(i) =>
        RewriteMatchCount(p.document, i, rId.rId, file, placeholder, file);
        RewriteKeepsOtherCounts(p.document, i, rId.rId, file, placeholder);
        Success(p.(
          relationships := p.relationships + [NewRelationship(rId, image)],
          media := p.media + {image.filename},
          document := RewriteAt(p.document, i, rId.rId)))
  }

  /**
    One iteration of the loop in `addMissingImage`, as written: the
    relationship id is simply the next one. When that id is the placeholder
    itself, the rewrite leaves the picture matching and the count does not go
    down.
  */
  function Iteration(p: Package, c: Cursors, file: string, placeholder: string): (r: Result<(Package, Cursors), Error>)
    ensures var v := c.rIds.current.idValue; var w := c.images.current.idValue;
      r.Success? ==>
        && r.value.1 == Cursors(RIdWalker(RIdOf(v + 1)), ImageFileWalker(ImageFileOf(w + 1)))
        && r.value.0.relationships == p.relationships + [Relationship(FormatRId(v + 1), MediaFolder + FormatImageFile(w + 1))]
        && r.value.0.staging == p.staging && r.value.0.done == p.done
        && r.value.0.media == p.media + {FormatImageFile(w + 1)}
        && FirstMatch(p.document, file, placeholder).Some?
        && r.value.0.document == RewriteAt(p.document, FirstMatch(p.document, file, placeholder).value, FormatRId(v + 1))
        && ImageMissingCount(r.value.0.document, file, placeholder)
           == ImageMissingCount(p.document, file, placeholder) - (if FormatRId(v + 1) == placeholder then 0 else 1)
    ensures r.Failure? <==>
      file !in p.staging || FormatImageFile(c.images.current.idValue + 1) in p.media || ImageMissingCount(p.document, file, placeholder) == 0
    ensures r.Failure? && r.error.NoMatchingBlip? ==> ImageMissingCount(p.document, file, placeholder) == 0
    ensures r.Failure? ==> r.error.NoSuchFile? || r.error.FileExists? || r.error.NoMatchingBlip?
  {
    var (rIds, rId) := NextRId(c.rIds);
    var (images, image) := NextImageFile(c.images);
    match Install(p, rId, image, file, placeholder)
    case Failure(e) => Failure(e)
    case Success(q) => Success((q, Cursors(rIds, images)))
  }

  /**
    Two pictures named `a.png` wait on `rId7`, and the largest id in the table
    is `rId6`. The first iteration allocates `rId7` itself, so the rewrite
    changes nothing; after the two iterations the count asked for, one picture
    still points at the placeholder.
  */
  lemma PlaceholderReissueKeepsMatch()
    ensures
      var waiting := GraphicElement(Some(PictureNode(Some("a.png"))), Some(BlipNode(Some("rId7"))));
      var p := Package([waiting, waiting], [Relationship("rId6", "media/image1.png")], {"image1.png"}, {"a.png"}, {});
      var c := Cursors(RIdWalker(RIdOf(6)), ImageFileWalker(ImageFileOf(1)));
      var first := Iteration(p, c, "a.png", "rId7");
      && ImageMissingCount(p.document, "a.png", "rId7") == 2
      && first.Success?
      && Iteration(first.value.0, first.value.1, "a.png", "rId7").Success?
      && ImageMissingCount(Iteration(first.value.0, first.value.1, "a.png", "rId7").value.0.document, "a.png", "rId7") == 1
  {
    var waiting := GraphicElement(Some(PictureNode(Some("a.png"))), Some(BlipNode(Some("rId7"))));
    var p := Package([waiting, waiting], [Relationship("rId6", "media/image1.png")], {"image1.png"}, {"a.png"}, {});
    var c := Cursors(RIdWalker(RIdOf(6)), ImageFileWalker(ImageFileOf(1)));
    assert IsMatch(waiting, "a.png", "rId7");
    assert [waiting, waiting][1..] == [waiting];
    assert [waiting][1..] == [];
    assert ImageMissingCount([waiting], "a.png", "rId7") == 1;
    assert ImageMissingCount(p.document, "a.png", "rId7") == 2;
    assert FormatNat(7) == "7";
    assert FormatRId(7) == "rId7";
    FormatRIdInjective(7, 8);
    assert FormatNat(2) == "2" && FormatNat(3) == "3";
    assert FormatImageFile(2) == "image2.jpeg";
    assert FormatImageFile(3) == "image3.jpeg";
    var first := Iteration(p, c, "a.png", "rId7");
    assert first.Success?;
    assert ImageMissingCount(first.value.0.document, "a.png", "rId7") == 2;
    assert first.value.0.media == {"image1.png", "image2.jpeg"} by {
      var (q, _) := first.value;
      assert q.media == p.media + {ImageFileOf(2).filename};
    }
  }

  /**
    One iteration of the repair with the allocation corrected: the relationship
    id steps over the placeholder, so every successful iteration consumes
    exactly one waiting picture.
  */
  function SafeIteration(p: Package, c: Cursors, file: string, placeholder: string): (r: Result<(Package, Cursors), Error>)
    ensures r.Failure? <==>
      file !in p.staging || FormatImageFile(c.images.current.idValue + 1) in p.media || ImageMissingCount(p.document, file, placeholder) == 0
    ensures r.Failure? && r.error.NoMatchingBlip? ==> ImageMissingCount(p.document, file, placeholder) == 0
    ensures r.Failure? ==> r.error.NoSuchFile? || r.error.FileExists? || r.error.NoMatchingBlip?
    ensures r.Success? ==>
      var (q, c') := r.value;
      var added := Relationship(c'.rIds.current.rId, MediaFolder + FormatImageFile(c.images.current.idValue + 1));
      && c'.images.current == ImageFileOf(c.images.current.idValue + 1)
      && c'.rIds.current == RIdOf(AvoidingStep(c.rIds.current.idValue, placeholder))
      && c.rIds.current.idValue < c'.rIds.current.idValue <= c.rIds.current.idValue + 2
      && added.id != placeholder
      && q.relationships == p.relationships + [added]
      && q.media == p.media + {FormatImageFile(c.images.current.idValue + 1)}
      && q.staging == p.staging && q.done == p.done
      && FirstMatch(p.document, file, placeholder).Some?
      && q.document == RewriteAt(p.document, FirstMatch(p.document, file, placeholder).value, added.id)
      && ImageMissingCount(q.document, file, placeholder) == ImageMissingCount(p.document, file, placeholder) - 1
      && forall other :: other != file ==>
           ImageMissingCount(q.document, other, placeholder) == ImageMissingCount(p.document, other, placeholder)
  {
    var (rIds, rId) := NextRIdAvoiding(c.rIds, placeholder);
    var (images, image) := NextImageFile(c.images);
    match Install(p, rId, image, file, placeholder)
    case Failure(e) => Failure(e)
    case Success(q) => Success((q, Cursors(rIds, images)))
  }

  /** `Files.move` of the candidate from the staging folder into the done folder. */
  function Retire(p: Package, file: string): (r: Result<Package, Error>)
    ensures r.Failure? <==> file !in p.staging || file in p.done
    ensures r.Failure? ==> r.error.NoSuchFile? || r.error.FileExists?
    ensures r.Success? ==>
      && r.value.staging == p.staging - {file} && r.value.done == p.done + {file}
      && file !in r.value.staging && file in r.value.done
      && r.value.document == p.document && r.value.relationships == p.relationships && r.value.media == p.media
  {
    if file !in p.staging then Failure(NoSuchFile(file))
    else if file in p.done then Failure(FileExists(file))
    else Success(p.(staging := p.staging - {file}, done := p.done + {file}))
  }

  /** The media names `k` iterations import, starting above `seed`. */
  function NewImageNames(seed: nat, k: nat): set<string> {
    if k == 0 then {} else NewImageNames(seed, k - 1) + {FormatImageFile(seed + k)}
  }

  /**
    The relationships `k` corrected iterations append, exactly: the ids the
    placeholder-avoiding cursor issues from `rSeed`, each pointing at the next
    media name above `iSeed`.
  */
  function SafeAllocation(rSeed: nat, iSeed: nat, k: nat, placeholder: string): (added: seq<Relationship>)
    ensures |added| == k
  {
    Pairings(AvoidingRun(rSeed, k, placeholder), iSeed)
  }

  /** Each issued id number paired with the next media name above `iSeed`, in order. */
  function Pairings(ns: seq<nat>, iSeed: nat): (added: seq<Relationship>)
    ensures |added| == |ns|
  {
    seq(|ns|, j requires 0 <= j < |ns| => Relationship(FormatRId(ns[j]), MediaFolder + FormatImageFile(iSeed + j + 1)))
  }

  /** The `j`-th relationship of the corrected allocation carries the `j`-th issued id and the `j`-th new media name. */
  lemma {:induction false} SafeAllocationAt(rSeed: nat, iSeed: nat, k: nat, placeholder: string, j: nat)
    requires j < k
    ensures SafeAllocation(rSeed, iSeed, k, placeholder)[j]
      == Relationship(FormatRId(AvoidingRun(rSeed, k, placeholder)[j]), MediaFolder + FormatImageFile(iSeed + j + 1))
  {
    var prev := SafeAllocation(rSeed, iSeed, k - 1, placeholder);
    var ns := AvoidingRun(rSeed, k, placeholder);
    var last := Relationship(FormatRId(ns[k - 1]), MediaFolder + FormatImageFile(iSeed + k));
    assert SafeAllocation(rSeed, iSeed, k, placeholder) == prev + [last];
    if j < k - 1 {
      var ns' := AvoidingRun(rSeed, k - 1, placeholder);
      assert ns == ns' + [AvoidingStep(LastIssued(rSeed, ns'), placeholder)];
      assert ns[j] == ns'[j];
      SafeAllocationAt(rSeed, iSeed, k - 1, placeholder, j);
    }
  }

  /** One more corrected iteration appends one relationship: the next avoiding id, paired with the next media name. */
  lemma SafeAllocationStep(rSeed: nat, iSeed: nat, i: nat, placeholder: string)
    ensures var next := AvoidingStep(LastIssued(rSeed, AvoidingRun(rSeed, i, placeholder)), placeholder);
      && SafeAllocation(rSeed, iSeed, i + 1, placeholder)
         == SafeAllocation(rSeed, iSeed, i, placeholder) + [Relationship(FormatRId(next), MediaFolder + FormatImageFile(iSeed + i + 1))]
      && LastIssued(rSeed, AvoidingRun(rSeed, i + 1, placeholder)) == next
  {
    var ns := AvoidingRun(rSeed, i, placeholder);
    var next := AvoidingStep(LastIssued(rSeed, ns), placeholder);
    assert AvoidingRun(rSeed, i + 1, placeholder) == ns + [next];
    PairingsAppend(ns, [next], iSeed);
  }

  /**
    The corrected allocation never uses the placeholder, never repeats an id
    or a media name, and, when the seeds were the largest numbers in use,
    never reuses an id of the existing table or a name in the media folder.
  */
  lemma SafeAllocationIsFresh(rSeed: nat, iSeed: nat, k: nat, placeholder: string, existing: seq<Relationship>, media: set<string>)
    ensures var added := SafeAllocation(rSeed, iSeed, k, placeholder);
      && (forall j :: 0 <= j < k ==> added[j].id != placeholder)
      && (forall i, j :: 0 <= i < j < k ==> added[i].id != added[j].id && added[i].target != added[j].target)
      && (RIdsAtMost(IdsOf(existing), rSeed) ==> forall j :: 0 <= j < k ==> added[j].id !in IdsOf(existing))
      && (ImagesAtMost(media, iSeed) ==> forall j :: 0 <= j < k ==> added[j].target[|MediaFolder|..] !in media)
  {
    SafeAllocationIdsAreFresh(rSeed, iSeed, k, placeholder, existing);
    if ImagesAtMost(media, iSeed) {
      forall j | 0 <= j < k
        ensures SafeAllocation(rSeed, iSeed, k, placeholder)[j].target[|MediaFolder|..] !in media
      {
        SafeAllocationTargetIsFresh(rSeed, iSeed, k, placeholder, media, j);
      }
    }
  }

  /** The id and distinctness half of the freshness above. */
  lemma SafeAllocationIdsAreFresh(rSeed: nat, iSeed: nat, k: nat, placeholder: string, existing: seq<Relationship>)
    ensures var added := SafeAllocation(rSeed, iSeed, k, placeholder);
      && (forall j :: 0 <= j < k ==> added[j].id != placeholder)
      && (forall i, j :: 0 <= i < j < k ==> added[i].id != added[j].id && added[i].target != added[j].target)
      && (RIdsAtMost(IdsOf(existing), rSeed) ==> forall j :: 0 <= j < k ==> added[j].id !in IdsOf(existing))
  {
    var added := SafeAllocation(rSeed, iSeed, k, placeholder);
    var ns := AvoidingRun(rSeed, k, placeholder);
    AvoidingRunFresh(rSeed, k, placeholder);
    forall j | 0 <= j < k
      ensures added[j] == Relationship(FormatRId(ns[j]), MediaFolder + FormatImageFile(iSeed + j + 1))
    {
      SafeAllocationAt(rSeed, iSeed, k, placeholder, j);
    }
    forall i, j | 0 <= i < j < k
      ensures added[i].id != added[j].id && added[i].target != added[j].target
    {
      FormatRIdInjective(ns[i], ns[j]);
      FormatImageFileInjective(iSeed + i + 1, iSeed + j + 1);
      assert added[i].target[|MediaFolder|..] == FormatImageFile(iSeed + i + 1);
      assert added[j].target[|MediaFolder|..] == FormatImageFile(iSeed + j + 1);
    }
    if RIdsAtMost(IdsOf(existing), rSeed) {
      forall j | 0 <= j < k
        ensures added[j].id !in IdsOf(existing)
      {
        IssuedRIdIsFresh(IdsOf(existing), rSeed, ns[j]);
      }
    }
  }

  /** Seeded from the folder's largest number, the `j`-th new target names no file already in the folder. */
  lemma SafeAllocationTargetIsFresh(rSeed: nat, iSeed: nat, k: nat, placeholder: string, media: set<string>, j: nat)
    requires ImagesAtMost(media, iSeed) && j < k
    ensures SafeAllocation(rSeed, iSeed, k, placeholder)[j].target[|MediaFolder|..] !in media
  {
    SafeAllocationAt(rSeed, iSeed, k, placeholder, j);
    assert SafeAllocation(rSeed, iSeed, k, placeholder)[j].target[|MediaFolder|..] == FormatImageFile(iSeed + j + 1);
    IssuedImageFileIsFresh(media, iSeed, iSeed + j + 1);
  }

  /** A target in the media folder is never the `NULL` marker, so its relationship always enters the map. */
  lemma MediaTargetNotNull(name: string)
    ensures !IsNullTarget(MediaFolder + name)
  {
    assert |ToUpper(MediaFolder + name)| == |MediaFolder| + |name|;
  }

  /** The `j`-th of `k` iterations imports its media name. */
  lemma {:induction false} ImportedName(seed: nat, k: nat, j: nat)
    requires j < k
    ensures FormatImageFile(seed + j + 1) in NewImageNames(seed, k)
  {
    if j < k - 1 {
      ImportedName(seed, k - 1, j);
    }
  }

  /**
    Appended to a table seeded from its largest id, every relationship of the
    corrected allocation resolves: its id is a key of the relationship map,
    and the key maps to that relationship's own media target.
  */
  lemma AllocationResolves(existing: seq<Relationship>, rSeed: nat, iSeed: nat, k: nat, placeholder: string, j: nat)
    requires RIdsAtMost(IdsOf(existing), rSeed)
    requires j < k
    ensures var added := SafeAllocation(rSeed, iSeed, k, placeholder);
      var m := ParseRelations(existing + added);
      && added[j].id in m
      && m[added[j].id] == MediaFolder + FormatImageFile(iSeed + j + 1)
  {
    var added := SafeAllocation(rSeed, iSeed, k, placeholder);
    var rels := existing + added;
    var id := added[j].id;
    SafeAllocationIdsAreFresh(rSeed, iSeed, k, placeholder, existing);
    SafeAllocationAt(rSeed, iSeed, k, placeholder, j);
    MediaTargetNotNull(FormatImageFile(iSeed + j + 1));
    assert rels[|existing| + j] == added[j];
    ParseRelationsKeys(rels, id);
    ParseRelationsLastWins(rels, id);
    var i :| IsLastDefinition(rels, id, i) && ParseRelations(rels)[id] == rels[i].target;
    assert forall i0 :: 0 <= i0 < |existing| ==> existing[i0].id == IdsOf(existing)[i0];
    assert |existing| <= i;
    var j' := i - |existing|;
    assert rels[i] == added[j'];
    assert j' == j;
  }

  /**
    Referential integrity after a corrected run of `k` iterations from an id
    seed at least the table's largest id: every relabelled picture's new id is
    a key of the relationship map, pointing at a media name the run imported.
  */
  lemma RepairResolves(p: Package, q: Package, rSeed: nat, iSeed: nat, k: nat, placeholder: string)
    requires RIdsAtMost(IdsOf(p.relationships), rSeed)
    requires q.relationships == p.relationships + SafeAllocation(rSeed, iSeed, k, placeholder)
    requires q.media == p.media + NewImageNames(iSeed, k)
    ensures var added := SafeAllocation(rSeed, iSeed, k, placeholder);
      var m := ParseRelations(q.relationships);
      forall j :: 0 <= j < k ==>
        && added[j].id in m
        && m[added[j].id] == MediaFolder + FormatImageFile(iSeed + j + 1)
        && FormatImageFile(iSeed + j + 1) in q.media
  {
    forall j | 0 <= j < k
      ensures var added := SafeAllocation(rSeed, iSeed, k, placeholder);
        var m := ParseRelations(q.relationships);
        && added[j].id in m
        && m[added[j].id] == MediaFolder + FormatImageFile(iSeed + j + 1)
        && FormatImageFile(iSeed + j + 1) in q.media
    {
      AllocationResolves(p.relationships, rSeed, iSeed, k, placeholder, j);
      ImportedName(iSeed, k, j);
    }
  }

  /** `a + b` iterations import the names of `a` iterations and then those of `b` more. */
  lemma {:induction false} NewImageNamesSplit(seed: nat, a: nat, b: nat)
    ensures NewImageNames(seed, a + b) == NewImageNames(seed, a) + NewImageNames(seed + a, b)
  {
    if b > 0 {
      NewImageNamesSplit(seed, a, b - 1);
    }
  }

  /**
    `a + b` corrected iterations append the relationships of `a` iterations
    and then those of `b` more, from where both cursors stopped.
  */
  lemma SafeAllocationSplit(rSeed: nat, iSeed: nat, a: nat, b: nat, placeholder: string)
    ensures SafeAllocation(rSeed, iSeed, a + b, placeholder)
      == SafeAllocation(rSeed, iSeed, a, placeholder)
         + SafeAllocation(LastIssued(rSeed, AvoidingRun(rSeed, a, placeholder)), iSeed + a, b, placeholder)
  {
    var first := AvoidingRun(rSeed, a, placeholder);
    var second := AvoidingRun(LastIssued(rSeed, first), b, placeholder);
    AvoidingRunSplit(rSeed, a, b, placeholder);
    PairingsAppend(first, second, iSeed);
    assert |first| == a;
    assert SafeAllocation(rSeed, iSeed, a + b, placeholder) == Pairings(first + second, iSeed);
  }

  /** Pairing two runs one after the other continues the media names where the first stopped. */
  lemma PairingsAppend(xs: seq<nat>, ys: seq<nat>, iSeed: nat)
    ensures Pairings(xs + ys, iSeed) == Pairings(xs, iSeed) + Pairings(ys, iSeed + |xs|)
  {
    var whole := Pairings(xs + ys, iSeed);
    var joined := Pairings(xs, iSeed) + Pairings(ys, iSeed + |xs|);
    forall j | 0 <= j < |xs| + |ys|
      ensures whole[j] == joined[j]
    {
      if j >= |xs| {
        assert (xs + ys)[j] == ys[j - |xs|];
        assert iSeed + j + 1 == iSeed + |xs| + (j - |xs|) + 1;
      }
    }
  }

  lemma ImagesStayBelowCursor(media: set<string>, bound: nat)
    requires ImagesAtMost(media, bound)
    ensures ImagesAtMost(media + {FormatImageFile(bound + 1)}, bound + 1)
  {
    ImageFileRoundTrip(bound + 1);
  }

  /**
    The allocation side of `addMissingImage` after `i` corrected iterations
    from `p` and `c`: the table has grown by the corrected allocation, one
    media name per iteration has been imported, and the cursors sit on the
    last id and name issued.
  */
  ghost predicate Allocated(p: Package, c: Cursors, placeholder: string, q: Package, cur: Cursors, i: nat) {
    var rSeed := c.rIds.current.idValue;
    var iSeed := c.images.current.idValue;
    && q.relationships == p.relationships + SafeAllocation(rSeed, iSeed, i, placeholder)
    && cur.rIds.current.idValue == LastIssued(rSeed, AvoidingRun(rSeed, i, placeholder))
    && cur.images.current.idValue == iSeed + i
    && q.media == p.media + NewImageNames(iSeed, i)
    && q.staging == p.staging && q.done == p.done
  }

  /**
    The document side: the `j`-th picture waiting for `file` points at the
    `j`-th new id, one fewer picture waits per iteration, and pictures of other
    names are untouched.
  */
  ghost predicate Relabelled(p: Package, file: string, placeholder: string, q: Package, ids: seq<string>) {
    && |ids| <= ImageMissingCount(p.document, file, placeholder)
    && (forall j :: 0 <= j < |ids| ==> ids[j] != placeholder)
    && q.document == RelabelMatches(p.document, file, placeholder, ids)
    && ImageMissingCount(q.document, file, placeholder) == ImageMissingCount(p.document, file, placeholder) - |ids|
    && (forall other :: other != file ==>
          ImageMissingCount(q.document, other, placeholder) == ImageMissingCount(p.document, other, placeholder))
  }

  lemma ProgressStart(p: Package, c: Cursors, file: string, placeholder: string)
    ensures Allocated(p, c, placeholder, p, c, 0)
    ensures Relabelled(p, file, placeholder, p, [])
  {
    RelabelNothing(p.document, file, placeholder);
    assert SafeAllocation(c.rIds.current.idValue, c.images.current.idValue, 0, placeholder) == [];
  }

  /** One successful corrected iteration appends the next relationship of the corrected allocation. */
  lemma AllocatedStep(p: Package, c: Cursors, file: string, placeholder: string, q: Package, cur: Cursors, i: nat)
    requires Allocated(p, c, placeholder, q, cur, i)
    requires SafeIteration(q, cur, file, placeholder).Success?
    ensures var (q', cur') := SafeIteration(q, cur, file, placeholder).value;
      && Allocated(p, c, placeholder, q', cur', i + 1)
      && IdsOf(SafeAllocation(c.rIds.current.idValue, c.images.current.idValue, i + 1, placeholder))
         == IdsOf(SafeAllocation(c.rIds.current.idValue, c.images.current.idValue, i, placeholder)) + [cur'.rIds.current.rId]
      && (ImagesAtMost(q.media, cur.images.current.idValue) ==> ImagesAtMost(q'.media, cur'.images.current.idValue))
  {
    var (q', cur') := SafeIteration(q, cur, file, placeholder).value;
    AllocatedExtend(p, c, placeholder, q, cur, q', cur', i);
    ImagesStep(q.media, q'.media, cur.images.current.idValue, cur'.images.current.idValue);
  }

  /** Importing the name just above the cursor and advancing the cursor keeps every numbered media name at most the cursor. */
  lemma ImagesStep(media: set<string>, media': set<string>, bound: nat, bound': nat)
    requires media' == media + {FormatImageFile(bound + 1)} && bound' == bound + 1
    ensures ImagesAtMost(media, bound) ==> ImagesAtMost(media', bound')
  {
    if ImagesAtMost(media, bound) {
      ImagesStayBelowCursor(media, bound);
    }
  }

  /**
    The allocation state after `i` iterations, extended by one more id and
    media name from the cursors, is the state after `i + 1` iterations.
  */
  lemma AllocatedExtend(p: Package, c: Cursors, placeholder: string, q: Package, cur: Cursors, q': Package, cur': Cursors, i: nat)
    requires Allocated(p, c, placeholder, q, cur, i)
    requires cur'.images.current == ImageFileOf(cur.images.current.idValue + 1)
    requires cur'.rIds.current == RIdOf(AvoidingStep(cur.rIds.current.idValue, placeholder))
    requires q'.relationships == q.relationships + [Relationship(cur'.rIds.current.rId, MediaFolder + FormatImageFile(cur.images.current.idValue + 1))]
    requires q'.media == q.media + {FormatImageFile(cur.images.current.idValue + 1)}
    requires q'.staging == q.staging && q'.done == q.done
    ensures Allocated(p, c, placeholder, q', cur', i + 1)
    ensures IdsOf(SafeAllocation(c.rIds.current.idValue, c.images.current.idValue, i + 1, placeholder))
         == IdsOf(SafeAllocation(c.rIds.current.idValue, c.images.current.idValue, i, placeholder)) + [cur'.rIds.current.rId]
  {
    var rSeed, iSeed := c.rIds.current.idValue, c.images.current.idValue;
    var before := SafeAllocation(rSeed, iSeed, i, placeholder);
    var after := SafeAllocation(rSeed, iSeed, i + 1, placeholder);
    SafeAllocationStep(rSeed, iSeed, i, placeholder);
    var last := Relationship(cur'.rIds.current.rId, MediaFolder + FormatImageFile(iSeed + i + 1));
    assert after == before + [last];
    ExtendTable(p.relationships, before, last, q.relationships, q'.relationships);
    ExtendMedia(p.media, iSeed, i, q.media, q'.media);
    ExtendIds(before, last);
  }

  /** Appending one relationship to a table that grew by `added` grows it by `added + [last]`. */
  lemma ExtendTable(base: seq<Relationship>, added: seq<Relationship>, last: Relationship, rels: seq<Relationship>, rels': seq<Relationship>)
    requires rels == base + added && rels' == rels + [last]
    ensures rels' == base + (added + [last])
  {
    AppendTwice(base, added, [last]);
  }

  /** Importing the next media name above the seed extends the imported names by one iteration. */
  lemma ExtendMedia(base: set<string>, iSeed: nat, i: nat, media: set<string>, media': set<string>)
    requires media == base + NewImageNames(iSeed, i) && media' == media + {FormatImageFile(iSeed + i + 1)}
    ensures media' == base + NewImageNames(iSeed, i + 1)
  {
  }

  /** The ids of a table with one more relationship are its ids with one more id. */
  lemma ExtendIds(rels: seq<Relationship>, last: Relationship)
    ensures IdsOf(rels + [last]) == IdsOf(rels) + [last.id]
  {
    assert IdsOf(rels + [last])[|rels|] == last.id;
  }

  /** One successful corrected iteration relabels the next waiting picture with the id it allocates. */
  lemma RelabelledStep(p: Package, file: string, placeholder: string, q: Package, cur: Cursors, ids: seq<string>)
    requires Relabelled(p, file, placeholder, q, ids)
    requires SafeIteration(q, cur, file, placeholder).Success?
    ensures var (q', cur') := SafeIteration(q, cur, file, placeholder).value;
      Relabelled(p, file, placeholder, q', ids + [cur'.rIds.current.rId])
  {
    var (q', cur') := SafeIteration(q, cur, file, placeholder).value;
    RelabelStep(p.document, file, placeholder, ids, cur'.rIds.current.rId);
  }

  /**
    `addMissingImage`, with the corrected allocation: the loop runs as many
    times as pictures named `file` wait on the placeholder, and each iteration
    consumes exactly one of them, so the query always finds a picture and
    none is left waiting. The `j`-th waiting picture in document order gets the
    `j`-th id of the corrected allocation. The candidate is then moved to the
    done folder.
  */
  method AddMissingImage(p: Package, c: Cursors, file: string, placeholder: string) returns (r: Result<(Package, Cursors), Error>)
    ensures r.Success? ==>
      var (q, c') := r.value;
      var k := ImageMissingCount(p.document, file, placeholder);
      var added := SafeAllocation(c.rIds.current.idValue, c.images.current.idValue, k, placeholder);
      && q.relationships == p.relationships + added
      && q.document == RelabelMatches(p.document, file, placeholder, IdsOf(added))
      && q.media == p.media + NewImageNames(c.images.current.idValue, k)
      && c'.rIds.current.idValue == LastIssued(c.rIds.current.idValue, AvoidingRun(c.rIds.current.idValue, k, placeholder))
      && c'.images.current.idValue == c.images.current.idValue + k
      && (ImagesAtMost(p.media, c.images.current.idValue) ==> ImagesAtMost(q.media, c'.images.current.idValue))
    ensures r.Success? ==>
      var q := r.value.0;
      && ImageMissingCount(q.document, file, placeholder) == 0
      && (forall other :: other != file ==>
            ImageMissingCount(q.document, other, placeholder) == ImageMissingCount(p.document, other, placeholder))
      && q.staging == p.staging - {file} && q.done == p.done + {file}
    ensures r.Failure? ==> r.error.NoSuchFile? || r.error.FileExists?
    ensures ImagesAtMost(p.media, c.images.current.idValue) && file in p.staging && file !in p.done ==> r.Success?
  {
    var k := ImageMissingCount(p.document, file, placeholder);
    var q := p;
    var cur := c;
    ghost var ids: seq<string> := [];
    ProgressStart(p, c, file, placeholder);
    for i := 0 to k
      invariant Allocated(p, c, placeholder, q, cur, i)
      invariant ImagesAtMost(p.media, c.images.current.idValue) ==> ImagesAtMost(q.media, cur.images.current.idValue)
      invariant ids == IdsOf(SafeAllocation(c.rIds.current.idValue, c.images.current.idValue, i, placeholder))
      invariant Relabelled(p, file, placeholder, q, ids)
    {
      var step := SafeIteration(q, cur, file, placeholder);
      if step.Failure? {
        if ImagesAtMost(p.media, c.images.current.idValue) {
          IssuedImageFileIsFresh(q.media, cur.images.current.idValue, cur.images.current.idValue + 1);
        }
        return Failure(step.error);
      }
      AllocatedStep(p, c, file, placeholder, q, cur, i);
      RelabelledStep(p, file, placeholder, q, cur, ids);
      ids := ids + [step.value.1.rIds.current.rId];
      q, cur := step.value.0, step.value.1;
    }
    var retired := Retire(q, file);
    if retired.Failure? {
      return Failure(retired.error);
    }
    r := Success((retired.value, cur));
  }

  /** The relationships `k` iterations as written append: ids and media names straight up from the seeds. */
  function AsWrittenAllocation(rSeed: nat, iSeed: nat, k: nat): (added: seq<Relationship>)
    ensures |added| == k
  {
    seq(k, j requires 0 <= j < k => Relationship(FormatRId(rSeed + j + 1), MediaFolder + FormatImageFile(iSeed + j + 1)))
  }

  /**
    When the placeholder's number is at or below the id seed, the corrected
    allocation is exactly the allocation as written: the two loops agree.
  */
  lemma SafeAllocationIsAsWritten(rSeed: nat, iSeed: nat, k: nat, placeholder: string)
    requires PlaceholderNumber(placeholder).None? || PlaceholderNumber(placeholder).value <= rSeed
    ensures SafeAllocation(rSeed, iSeed, k, placeholder) == AsWrittenAllocation(rSeed, iSeed, k)
  {
    AvoidingRunIsPlain(rSeed, k, placeholder);
    var safe := SafeAllocation(rSeed, iSeed, k, placeholder);
    var written := AsWrittenAllocation(rSeed, iSeed, k);
    forall j | 0 <= j < k
      ensures safe[j] == written[j]
    {
      assert AvoidingRun(rSeed, k, placeholder)[j] == rSeed + j + 1;
    }
  }

  /** An iteration whose next id is not the placeholder is the same with either cursor. */
  lemma SafeIterationIsIteration(p: Package, c: Cursors, file: string, placeholder: string)
    requires PlaceholderNumber(placeholder) != Some(c.rIds.current.idValue + 1)
    ensures SafeIteration(p, c, file, placeholder) == Iteration(p, c, file, placeholder)
  {
  }

  /** The `j`-th id (from 0) a cursor seeded at `seed` hands out. */
  function IssuedRId(seed: nat, j: nat): string {
    FormatRId(seed + j + 1)
  }

  /**
    The as-written allocation and the issued ids are what
    the two walkers hand out: the `j`-th relationship is `createNewRelationship`
    of the `j`-th id and the `j`-th name.
  */
  lemma AsWrittenIsWalkers(rSeed: nat, iSeed: nat, k: nat)
    ensures forall j :: 0 <= j < k ==>
      AsWrittenAllocation(rSeed, iSeed, k)[j]
      == NewRelationship(IssueRIds(RIdWalker(RIdOf(rSeed)), k).0[j], IssueImageFiles(ImageFileWalker(ImageFileOf(iSeed)), k).0[j])
    ensures forall j :: 0 <= j < k ==> IssuedRId(rSeed, j) == IssueRIds(RIdWalker(RIdOf(rSeed)), k).0[j].rId
  {
    var ids := IssueRIds(RIdWalker(RIdOf(rSeed)), k).0;
    var files := IssueImageFiles(ImageFileWalker(ImageFileOf(iSeed)), k).0;
    forall j | 0 <= j < k
      ensures AsWrittenAllocation(rSeed, iSeed, k)[j] == NewRelationship(ids[j], files[j])
      ensures IssuedRId(rSeed, j) == ids[j].rId
    {
      WalkerPair(rSeed, iSeed, j, ids[j], files[j]);
    }
  }

  /** The relationship built from the `j`-th issued id and name is the `j`-th one as written. */
  lemma WalkerPair(rSeed: nat, iSeed: nat, j: nat, rId: RId, file: ImageFile)
    requires rId == RIdOf(rSeed + j + 1) && file == ImageFileOf(iSeed + j + 1)
    ensures NewRelationship(rId, file) == Relationship(FormatRId(rSeed + j + 1), MediaFolder + FormatImageFile(iSeed + j + 1))
    ensures IssuedRId(rSeed, j) == rId.rId
  {
  }

  /** The names `k` iterations import are exactly the names the image walker hands out. */
  lemma NewImageNamesAreWalkers(iSeed: nat, k: nat)
    ensures forall j :: 0 <= j < k ==>
      IssueImageFiles(ImageFileWalker(ImageFileOf(iSeed)), k).0[j].filename in NewImageNames(iSeed, k)
    ensures forall name :: name in NewImageNames(iSeed, k) ==>
      exists j :: 0 <= j < k && IssueImageFiles(ImageFileWalker(ImageFileOf(iSeed)), k).0[j].filename == name
  {
    var files := IssueImageFiles(ImageFileWalker(ImageFileOf(iSeed)), k).0;
    forall j | 0 <= j < k
      ensures files[j].filename in NewImageNames(iSeed, k)
    {
      assert files[j] == ImageFileOf(iSeed + j + 1);
      ImportedName(iSeed, k, j);
    }
    forall name | name in NewImageNames(iSeed, k)
      ensures exists j :: 0 <= j < k && IssueImageFiles(ImageFileWalker(ImageFileOf(iSeed)), k).0[j].filename == name
    {
      var j := NamedImport(iSeed, k, name);
      assert IssueImageFiles(ImageFileWalker(ImageFileOf(iSeed)), k).0[j] == ImageFileOf(iSeed + j + 1);
    }
  }

  /** Every imported name is the `j`-th one for some `j`. */
  lemma {:induction false} NamedImport(seed: nat, k: nat, name: string) returns (j: nat)
    requires name in NewImageNames(seed, k)
    ensures j < k && name == FormatImageFile(seed + j + 1)
  {
    if name == FormatImageFile(seed + k) {
      j := k - 1;
    } else {
      j := NamedImport(seed, k - 1, name);
    }
  }

  /** Some of the first `k` ids a cursor seeded at `seed` hands out is the placeholder. */
  predicate IssuesPlaceholder(seed: nat, k: nat, placeholder: string) {
    exists j :: 0 <= j < k && IssuedRId(seed, j) == placeholder
  }

  /**
    The ids the first `k` iterations as written leave in the document: every
    id the cursor hands out except the placeholder, whose rewrite leaves the
    picture as it was.
  */
  function AsWrittenLabels(seed: nat, k: nat, placeholder: string): (ids: seq<string>)
    ensures |ids| <= k
    ensures forall j :: 0 <= j < |ids| ==> ids[j] != placeholder
  {
    if k == 0 then []
    else
      var prev := AsWrittenLabels(seed, k - 1, placeholder);
      if IssuedRId(seed, k - 1) == placeholder then prev else prev + [IssuedRId(seed, k - 1)]
  }

  /**
    The content side of `addMissingImage` as written after `i` iterations: one
    new media name per iteration, and the waiting pictures relabelled in
    document order with the ids handed out so far, the placeholder excepted.
  */
  ghost predicate WrittenContent(p: Package, c: Cursors, file: string, placeholder: string, q: Package, i: nat) {
    && q.media == p.media + NewImageNames(c.images.current.idValue, i)
    && q.document == RelabelMatches(p.document, file, placeholder, AsWrittenLabels(c.rIds.current.idValue, i, placeholder))
  }

  /** One successful iteration as written imports the next name and relabels the next waiting picture, unless its id is the placeholder. */
  lemma WrittenContentStep(p: Package, c: Cursors, file: string, placeholder: string, q: Package, cur: Cursors, i: nat)
    requires WrittenSoFar(p, c, file, placeholder, q, cur, i) && WrittenContent(p, c, file, placeholder, q, i)
    requires i < ImageMissingCount(p.document, file, placeholder)
    requires Iteration(q, cur, file, placeholder).Success?
    ensures WrittenContent(p, c, file, placeholder, Iteration(q, cur, file, placeholder).value.0, i + 1)
  {
    var v := c.rIds.current.idValue;
    var q' := Iteration(q, cur, file, placeholder).value.0;
    var id := IssuedRId(v, i);
    var labels := AsWrittenLabels(v, i, placeholder);
    var at := FirstMatch(q.document, file, placeholder).value;
    assert q'.document == RewriteAt(q.document, at, id);
    if id == placeholder {
      RewriteWithPlaceholder(q.document, at, file, placeholder);
      assert AsWrittenLabels(v, i + 1, placeholder) == labels;
    } else {
      RelabelStep(p.document, file, placeholder, labels, id);
      assert AsWrittenLabels(v, i + 1, placeholder) == labels + [id];
    }
  }

  /**
    The state of `addMissingImage` as written after `i` iterations: the cursors
    and the table have moved `i` steps, and one picture more than the
    iterations left is still waiting once the placeholder has been issued.
  */
  ghost predicate WrittenSoFar(p: Package, c: Cursors, file: string, placeholder: string, q: Package, cur: Cursors, i: nat) {
    var k := ImageMissingCount(p.document, file, placeholder);
    var v := c.rIds.current.idValue;
    var w := c.images.current.idValue;
    && i <= k
    && cur.rIds.current.idValue == v + i
    && cur.images.current.idValue == w + i
    && q.relationships == p.relationships + AsWrittenAllocation(v, w, i)
    && ImageMissingCount(q.document, file, placeholder) == k - i + (if IssuesPlaceholder(v, i, placeholder) then 1 else 0)
    && q.staging == p.staging && q.done == p.done
  }

  /** One successful iteration as written advances the state by one step. */
  lemma WrittenStep(p: Package, c: Cursors, file: string, placeholder: string, q: Package, cur: Cursors, i: nat)
    requires WrittenSoFar(p, c, file, placeholder, q, cur, i)
    requires i < ImageMissingCount(p.document, file, placeholder)
    requires Iteration(q, cur, file, placeholder).Success?
    ensures WrittenSoFar(p, c, file, placeholder, Iteration(q, cur, file, placeholder).value.0, Iteration(q, cur, file, placeholder).value.1, i + 1)
  {
    var v := c.rIds.current.idValue;
    var w := c.images.current.idValue;
    if IssuesPlaceholder(v, i, placeholder) && IssuedRId(v, i) == placeholder {
      var j :| 0 <= j < i && IssuedRId(v, j) == placeholder;
      FormatRIdInjective(v + j + 1, v + i + 1);
    }
    assert IssuesPlaceholder(v, i + 1, placeholder) == (IssuesPlaceholder(v, i, placeholder) || IssuedRId(v, i) == placeholder);
    assert AsWrittenAllocation(v, w, i + 1)
      == AsWrittenAllocation(v, w, i) + [Relationship(FormatRId(v + i + 1), MediaFolder + FormatImageFile(w + i + 1))];
  }

  /**
    `addMissingImage` as written: the loop still never runs out of pictures to
    rewrite, but if one of the ids it allocates is the placeholder itself, one
    picture is left pointing at the placeholder afterwards.
  */
  method AddMissingImageAsWritten(p: Package, c: Cursors, file: string, placeholder: string) returns (r: Result<(Package, Cursors), Error>)
    ensures r.Success? ==>
      var (q, c') := r.value;
      var k := ImageMissingCount(p.document, file, placeholder);
      var v := c.rIds.current.idValue;
      && q.relationships == p.relationships + AsWrittenAllocation(v, c.images.current.idValue, k)
      && q.media == p.media + NewImageNames(c.images.current.idValue, k)
      && q.document == RelabelMatches(p.document, file, placeholder, AsWrittenLabels(v, k, placeholder))
      && ImageMissingCount(q.document, file, placeholder)
         == (if IssuesPlaceholder(v, k, placeholder) then 1 else 0)
      && q.staging == p.staging - {file} && q.done == p.done + {file}
      && c'.rIds.current.idValue == v + k
      && c'.images.current.idValue == c.images.current.idValue + k
    ensures r.Failure? ==> r.error.NoSuchFile? || r.error.FileExists?
  {
    var k := ImageMissingCount(p.document, file, placeholder);
    var q := p;
    var cur := c;
    assert AsWrittenAllocation(c.rIds.current.idValue, c.images.current.idValue, 0) == [];
    RelabelNothing(p.document, file, placeholder);
    for i := 0 to k
      invariant WrittenSoFar(p, c, file, placeholder, q, cur, i)
      invariant WrittenContent(p, c, file, placeholder, q, i)
    {
      var step := Iteration(q, cur, file, placeholder);
      if step.Failure? {
        return Failure(step.error);
      }
      WrittenStep(p, c, file, placeholder, q, cur, i);
      WrittenContentStep(p, c, file, placeholder, q, cur, i);
      q, cur := step.value.0, step.value.1;
    }
    var retired := Retire(q, file);
    if retired.Failure? {
      return Failure(retired.error);
    }
    r := Success((retired.value, cur));
  }

  /** The candidates a run repairs: those with at least one picture waiting on the placeholder. */
  function Repaired(doc: seq<GraphicElement>, candidates: seq<string>, placeholder: string): set<string> {
    set f | f in candidates && 0 < ImageMissingCount(doc, f, placeholder)
  }

  /**
    The state of `addMissingImages` after the first `i` candidates: each of
    them has no picture left waiting, pictures of other names are untouched,
    the repaired ones have moved from staging to done, and the table and media
    folder have only grown. When none of them needed a repair, nothing changed.
  */
  ghost predicate Processed(p: Package, candidates: seq<string>, placeholder: string, q: Package, i: nat) {
    && i <= |candidates|
    && (forall f :: f in candidates[..i] ==> ImageMissingCount(q.document, f, placeholder) == 0)
    && (forall f :: f !in candidates[..i] ==>
          ImageMissingCount(q.document, f, placeholder) == ImageMissingCount(p.document, f, placeholder))
    && q.staging == p.staging - Repaired(p.document, candidates[..i], placeholder)
    && q.done == p.done + Repaired(p.document, candidates[..i], placeholder)
    && |p.relationships| <= |q.relationships| && q.relationships[..|p.relationships|] == p.relationships
    && p.media <= q.media
    && ((forall f :: f in candidates[..i] ==> ImageMissingCount(p.document, f, placeholder) == 0) ==> q == p)
  }

  /** A candidate with a waiting picture has not been seen before, and it is one the run repairs. */
  lemma ProcessedPending(p: Package, candidates: seq<string>, placeholder: string, q: Package, i: nat)
    requires Processed(p, candidates, placeholder, q, i) && i < |candidates|
    requires 0 < ImageMissingCount(q.document, candidates[i], placeholder)
    ensures candidates[i] !in Repaired(p.document, candidates[..i], placeholder)
    ensures candidates[i] in Repaired(p.document, candidates, placeholder)
  {
  }

  /** Repairing the next candidate extends the processed prefix by one. */
  lemma ProcessedRepair(p: Package, candidates: seq<string>, placeholder: string, q: Package, q': Package, i: nat)
    requires Processed(p, candidates, placeholder, q, i) && i < |candidates|
    requires 0 < ImageMissingCount(q.document, candidates[i], placeholder)
    requires ImageMissingCount(q'.document, candidates[i], placeholder) == 0
    requires forall other :: other != candidates[i] ==>
      ImageMissingCount(q'.document, other, placeholder) == ImageMissingCount(q.document, other, placeholder)
    requires q'.staging == q.staging - {candidates[i]} && q'.done == q.done + {candidates[i]}
    requires |q.relationships| <= |q'.relationships| && q'.relationships[..|q.relationships|] == q.relationships
    requires q.media <= q'.media
    ensures Processed(p, candidates, placeholder, q', i + 1)
  {
    var file := candidates[i];
    assert candidates[..i + 1] == candidates[..i] + [file];
    assert Repaired(p.document, candidates[..i + 1], placeholder) == Repaired(p.document, candidates[..i], placeholder) + {file};
    assert q'.relationships[..|p.relationships|] == q'.relationships[..|q.relationships|][..|p.relationships|];
  }

  /** A candidate with nothing waiting is passed over. */
  lemma ProcessedSkip(p: Package, candidates: seq<string>, placeholder: string, q: Package, i: nat)
    requires Processed(p, candidates, placeholder, q, i) && i < |candidates|
    requires ImageMissingCount(q.document, candidates[i], placeholder) == 0
    ensures Processed(p, candidates, placeholder, q, i + 1)
  {
    var file := candidates[i];
    assert candidates[..i + 1] == candidates[..i] + [file];
    assert Repaired(p.document, candidates[..i + 1], placeholder) == Repaired(p.document, candidates[..i], placeholder);
  }

  /**
    How many pictures a run over `candidates` repairs: each candidate counts
    its waiting pictures the first time it is listed, and nothing when it is
    listed again, since by then none is left waiting.
  */
  function RepairTotal(doc: seq<GraphicElement>, candidates: seq<string>, placeholder: string): nat {
    if |candidates| == 0 then 0
    else
      var prefix := candidates[..|candidates| - 1];
      var file := candidates[|candidates| - 1];
      RepairTotal(doc, prefix, placeholder) + (if file in prefix then 0 else ImageMissingCount(doc, file, placeholder))
  }

  /**
    The table, the media folder and the cursors after `total` iterations of one
    corrected run from seeds `rSeed` and `iSeed`: they have issued exactly what
    that run issues, and the table and the media folder have grown by exactly that.
  */
  ghost predicate AllocatedBy(p: Package, rSeed: nat, iSeed: nat, placeholder: string, q: Package, cur: Cursors, total: nat) {
    && q.relationships == p.relationships + SafeAllocation(rSeed, iSeed, total, placeholder)
    && q.media == p.media + NewImageNames(iSeed, total)
    && cur.rIds.current.idValue == LastIssued(rSeed, AvoidingRun(rSeed, total, placeholder))
    && cur.images.current.idValue == iSeed + total
  }

  /**
    The allocation side of `addMissingImages` after the first `i` candidates:
    the shared cursors stand where one corrected run of `RepairTotal`
    iterations leaves them.
  */
  ghost predicate RunAllocated(p: Package, rSeed: nat, iSeed: nat, candidates: seq<string>, placeholder: string, q: Package, cur: Cursors, i: nat)
    requires i <= |candidates|
  {
    AllocatedBy(p, rSeed, iSeed, placeholder, q, cur, RepairTotal(p.document, candidates[..i], placeholder))
  }

  /** Extending the candidate list by one adds that candidate's count, unless it was listed before. */
  lemma RepairTotalStep(doc: seq<GraphicElement>, candidates: seq<string>, placeholder: string, i: nat)
    requires i < |candidates|
    ensures RepairTotal(doc, candidates[..i + 1], placeholder)
      == RepairTotal(doc, candidates[..i], placeholder)
         + (if candidates[i] in candidates[..i] then 0 else ImageMissingCount(doc, candidates[i], placeholder))
  {
    assert candidates[..i + 1][..i] == candidates[..i];
  }

  /**
    A corrected run of `total` iterations followed by one of `k` more, from
    where the cursors stopped, appends what one corrected run of `total + k`
    iterations appends.
  */
  lemma ContinueRelationships(base: seq<Relationship>, rSeed: nat, iSeed: nat, placeholder: string, total: nat, k: nat,
                              rels: seq<Relationship>, rels': seq<Relationship>)
    requires rels == base + SafeAllocation(rSeed, iSeed, total, placeholder)
    requires rels' == rels + SafeAllocation(LastIssued(rSeed, AvoidingRun(rSeed, total, placeholder)), iSeed + total, k, placeholder)
    ensures rels' == base + SafeAllocation(rSeed, iSeed, total + k, placeholder)
  {
    SafeAllocationSplit(rSeed, iSeed, total, k, placeholder);
    AppendTwice(base, SafeAllocation(rSeed, iSeed, total, placeholder),
                SafeAllocation(LastIssued(rSeed, AvoidingRun(rSeed, total, placeholder)), iSeed + total, k, placeholder));
  }

  /** Appending two pieces one after the other appends their concatenation. */
  lemma AppendTwice<T>(base: seq<T>, a: seq<T>, b: seq<T>)
    ensures base + a + b == base + (a + b)
  {
  }

  /** The same for the media names imported. */
  lemma ContinueMedia(base: set<string>, iSeed: nat, total: nat, k: nat, media: set<string>, media': set<string>)
    requires media == base + NewImageNames(iSeed, total)
    requires media' == media + NewImageNames(iSeed + total, k)
    ensures media' == base + NewImageNames(iSeed, total + k)
  {
    NewImageNamesSplit(iSeed, total, k);
  }

  /** The same for where the relationship id cursor ends. */
  lemma ContinueCursor(rSeed: nat, placeholder: string, total: nat, k: nat, at: nat)
    requires var mid := LastIssued(rSeed, AvoidingRun(rSeed, total, placeholder));
      at == LastIssued(mid, AvoidingRun(mid, k, placeholder))
    ensures at == LastIssued(rSeed, AvoidingRun(rSeed, total + k, placeholder))
  {
    AvoidingRunSplit(rSeed, total, k, placeholder);
  }

  /** One more iteration of `k` steps from where the cursors stopped continues the same corrected run. */
  lemma AllocatedByContinue(p: Package, rSeed: nat, iSeed: nat, placeholder: string, q: Package, cur: Cursors,
                            q': Package, cur': Cursors, total: nat, k: nat)
    requires AllocatedBy(p, rSeed, iSeed, placeholder, q, cur, total)
    requires AllocatedBy(q, cur.rIds.current.idValue, cur.images.current.idValue, placeholder, q', cur', k)
    ensures AllocatedBy(p, rSeed, iSeed, placeholder, q', cur', total + k)
  {
    ContinueRelationships(p.relationships, rSeed, iSeed, placeholder, total, k, q.relationships, q'.relationships);
    ContinueMedia(p.media, iSeed, total, k, q.media, q'.media);
    ContinueCursor(rSeed, placeholder, total, k, cur'.rIds.current.idValue);
  }

  /** Repairing the next candidate continues the single corrected run by its count. */
  lemma RunAllocatedRepair(p: Package, rSeed: nat, iSeed: nat, candidates: seq<string>, placeholder: string,
                           q: Package, cur: Cursors, q': Package, cur': Cursors, i: nat)
    requires i < |candidates| && candidates[i] !in candidates[..i]
    requires RunAllocated(p, rSeed, iSeed, candidates, placeholder, q, cur, i)
    requires AllocatedBy(q, cur.rIds.current.idValue, cur.images.current.idValue, placeholder, q', cur',
                         ImageMissingCount(p.document, candidates[i], placeholder))
    ensures RunAllocated(p, rSeed, iSeed, candidates, placeholder, q', cur', i + 1)
  {
    var k := ImageMissingCount(p.document, candidates[i], placeholder);
    var total := RepairTotal(p.document, candidates[..i], placeholder);
    RepairTotalStep(p.document, candidates, placeholder, i);
    AllocatedByContinue(p, rSeed, iSeed, placeholder, q, cur, q', cur', total, k);
  }

  /** Passing over a candidate with nothing waiting leaves the run where it was. */
  lemma RunAllocatedSkip(p: Package, rSeed: nat, iSeed: nat, candidates: seq<string>, placeholder: string, q: Package, cur: Cursors, i: nat)
    requires i < |candidates|
    requires candidates[i] in candidates[..i] || ImageMissingCount(p.document, candidates[i], placeholder) == 0
    requires RunAllocated(p, rSeed, iSeed, candidates, placeholder, q, cur, i)
    ensures RunAllocated(p, rSeed, iSeed, candidates, placeholder, q, cur, i + 1)
  {
    RepairTotalStep(p.document, candidates, placeholder, i);
  }

  /**
    `addMissingImages`: both cursors are seeded once, and each candidate in
    listing order is repaired when a picture waits for it (the
    `isImageMissing` filter). The run stops at the first failure.
  */
  method AddMissingImages(p: Package, rId: RId, image: ImageFile, candidates: seq<string>, placeholder: string) returns (r: Result<Package, Error>)
    ensures r.Success? ==> forall f :: f in candidates ==> ImageMissingCount(r.value.document, f, placeholder) == 0
    ensures r.Success? ==> forall f :: f !in candidates ==>
      ImageMissingCount(r.value.document, f, placeholder) == ImageMissingCount(p.document, f, placeholder)
    ensures r.Success? ==>
      && r.value.staging == p.staging - Repaired(p.document, candidates, placeholder)
      && r.value.done == p.done + Repaired(p.document, candidates, placeholder)
    ensures r.Success? ==>
      |p.relationships| <= |r.value.relationships| && r.value.relationships[..|p.relationships|] == p.relationships
    ensures r.Success? ==> p.media <= r.value.media
    ensures r.Success? ==>
      var total := RepairTotal(p.document, candidates, placeholder);
      && r.value.relationships == p.relationships + SafeAllocation(rId.idValue, image.idValue, total, placeholder)
      && r.value.media == p.media + NewImageNames(image.idValue, total)
    ensures (forall f :: f in candidates ==> ImageMissingCount(p.document, f, placeholder) == 0) ==> r == Success(p)
    ensures r.Failure? ==> r.error.NoSuchFile? || r.error.FileExists?
    ensures ImagesAtMost(p.media, image.idValue)
      && (forall f :: f in Repaired(p.document, candidates, placeholder) ==> f in p.staging && f !in p.done)
      ==> r.Success?
  {
    var q := p;
    var cur := Cursors(RIdWalker(rId), ImageFileWalker(image));
    assert candidates[..0] == [];
    assert SafeAllocation(rId.idValue, image.idValue, 0, placeholder) == [];
    for i := 0 to |candidates|
      invariant Processed(p, candidates, placeholder, q, i)
      invariant ImagesAtMost(p.media, image.idValue) ==> ImagesAtMost(q.media, cur.images.current.idValue)
      invariant RunAllocated(p, rId.idValue, image.idValue, candidates, placeholder, q, cur, i)
    {
      var file := candidates[i];
      CountPositiveIffMatch(q.document, file, placeholder);
      if IsImageMissing(q.document, file, placeholder) {
        ProcessedPending(p, candidates, placeholder, q, i);
        var step := AddMissingImage(q, cur, file, placeholder);
        if step.Failure? {
          return Failure(step.error);
        }
        ProcessedRepair(p, candidates, placeholder, q, step.value.0, i);
        assert file !in candidates[..i];
        assert AllocatedBy(q, cur.rIds.current.idValue, cur.images.current.idValue, placeholder, step.value.0, step.value.1,
                           ImageMissingCount(p.document, file, placeholder));
        RunAllocatedRepair(p, rId.idValue, image.idValue, candidates, placeholder, q, cur, step.value.0, step.value.1, i);
        q, cur := step.value.0, step.value.1;
      } else {
        ProcessedSkip(p, candidates, placeholder, q, i);
        assert file in candidates[..i] || ImageMissingCount(p.document, file, placeholder) == 0;
        RunAllocatedSkip(p, rId.idValue, image.idValue, candidates, placeholder, q, cur, i);
      }
    }
    assert candidates[..|candidates|] == candidates;
    r := Success(q);
  }

  /** A picture named `name` whose blip waits on `placeholder`. */
  function Waiting(name: string, placeholder: string): (g: GraphicElement)
    ensures IsMatch(g, name, placeholder)
  {
    GraphicElement(Some(PictureNode(Some(name))), Some(BlipNode(Some(placeholder))))
  }

  /**
    Two different candidates, the first waited on by two pictures and the
    second by one, make a run of three iterations.
  */
  lemma {:induction false} TwoCandidatesTotal(a: string, b: string, placeholder: string)
    requires a != b
    ensures var doc := [Waiting(a, placeholder), Waiting(a, placeholder), Waiting(b, placeholder)];
      && ImageMissingCount(doc, a, placeholder) == 2
      && ImageMissingCount(doc, b, placeholder) == 1
      && RepairTotal(doc, [a, b], placeholder) == 3
  {
    var doc := [Waiting(a, placeholder), Waiting(a, placeholder), Waiting(b, placeholder)];
    var tail := doc[1..][1..];
    assert tail == [Waiting(b, placeholder)] && tail[1..] == [];
    assert !IsMatch(tail[0], a, placeholder);
    assert ImageMissingCount(tail, a, placeholder) == 0;
    assert ImageMissingCount(tail, b, placeholder) == 1;
    assert ImageMissingCount(doc[1..], a, placeholder) == 1;
    assert ImageMissingCount(doc, a, placeholder) == 2;
    assert [a, b][..1] == [a] && [a][..0] == [];
    assert RepairTotal(doc, [a], placeholder) == 2;
    assert b !in [a];
  }

  /**
    Pictures `photoA.jpg`, `photoA.jpg`, `photoB.jpg` all waiting on `rId7`,
    with both files staged: the run repairs twice for the first file, once
    for the second, and appends three relationships in all.
  */
  lemma TwoCandidatesScenario()
    ensures var doc := [Waiting("photoA.jpg", "rId7"), Waiting("photoA.jpg", "rId7"), Waiting("photoB.jpg", "rId7")];
      && ImageMissingCount(doc, "photoA.jpg", "rId7") == 2
      && ImageMissingCount(doc, "photoB.jpg", "rId7") == 1
      && RepairTotal(doc, ["photoA.jpg", "photoB.jpg"], "rId7") == 3
  {
    assert "photoA.jpg"[5] != "photoB.jpg"[5];
    TwoCandidatesTotal("photoA.jpg", "photoB.jpg", "rId7");
  }
}

=== FILE: wrappers.dfy ===
/** Option and Result, as the rest of the model uses them. */
module Wrappers {

  datatype Option<+T> = None | Some(value: T)

  datatype Result<+T, +E> = Success(value: T) | Failure(error: E)
}
